=== FILE: README.md ===
# Amortization calculator — a Dafny model of its computational core

The application computes the fixed monthly payment of a loan and lists, month
by month, how each payment splits into interest and principal until the loan
is repaid. It can also export that schedule as CSV text. This project models
four parts of it:

- **the payment calculator**, `calculateMonthlyPayment` (`FinancialMath.CalculateMonthlyPayment`).
  It converts an annual percentage rate to a monthly one. A zero rate gives
  the principal in equal parts; otherwise the annuity formula
  P·r·(1+r)^n / ((1+r)^n − 1) applies.
- **the schedule generator**, `generateAmortizationSchedule`. Its loop is one
  step function over a (month, balance, payment) state (`FinancialMath.Step`)
  and a recursive run of it (`FinancialMath.Run`). The imperative loop
  (`FinancialMath.GenerateSchedule`) compares the month index with the real
  bound `termYears * 12` and reassigns `monthlyPayment` in place, as
  `generateAmortizationSchedule` does, and is proved equal to the recursive
  run. Each step does the
  following, in order:
  - computes the interest and the principal portion;
  - applies the short-final-payment correction;
  - subtracts the principal portion from the balance;
  - snaps a residue below one cent to zero;
  - emits a record.
- **the text half of the CSV export**, `exportToCSV` up to the final `'\n'`
  join (`CsvExporter.ExportToCSV`, `CsvExporter.BuildCsv`). `toFixed(2)` is
  modelled over exact reals (`Fixed.ToFixed2`), `Array.prototype.join` by
  `Text.Join`, and the month's decimal rendering by `Text.NatToString`. A
  reader for the exported text (`CsvExporter.ParseCsv`) is the partner that
  the round-trip lemmas are stated against.
- **the calculator component's computation**, the body of its `useMemo`
  (`AmortizationCalculator.Calculate`), plus the twelve-record preview
  (`AmortizationCalculator.SchedulePreview`).

Amounts and the term in years are exact `real`s. The schedule loop runs
once for every whole month in `termYears * 12`
(`FinancialMath.NumberOfPayments`), so any term is covered there,
including half-year terms and terms under one month. The annuity formula
raises 1 + r to the power `termYears * 12`; that is a recursive power over
`nat` (`FinancialMath.Pow`) whenever the term is a whole number of months
(`FinancialMath.WholeMonths`), as 0.5, 2.5 or 30 years are.

`Annuity` proves why the annuity payment is the right one. In exact
arithmetic it is the unique level payment whose discounted stream
(`Annuity.PresentValue`) equals the principal. Fed into the loop, it always
closes the loan: for every positive principal, non-negative rate and
whole-month term, the last record leaves a balance of exactly zero and the
principal portions add up to the principal
(`Annuity.AnnuityScheduleClosesAtZero`). If in addition the payment is at
least 0.01·(1+r) and (1+r)² ≤ 2+r (a monthly rate r below about 61.8 %),
it gives exactly one record per month of the term, every record paying
that amount. Outside those conditions the loop can close early: at 1200 %
a year the first month already takes the short-payment branch
(`AmortizationCalculator.TotalPaymentIsNotScheduleSum`).

The model follows the code in three behaviours that a reader might expect
otherwise:
- The residue snap fires for every remaining balance below 0.01, negative ones
  included (`remainingBalance < 0.01`), not only for `0 < balance < 0.01`.
- "payment = principal + interest" holds exactly in the short-payment branch
  and on every record that leaves a non-zero balance. On a record whose
  residue was snapped in the normal branch, principal + interest exceeds the
  payment by the folded residue, which is below one cent.
- The principal portions plus the balance still owed equal the principal
  exactly (in exact arithmetic), not only within a cent.

Modules: `Wrappers` (`Option`), `Types` (the `AmortizationData` record),
`Text`, `Fixed`, `FinancialMath`, `ScheduleFacts`, `Annuity`, `CsvExporter`,
`AmortizationCalculator`.

## Model

| member | source | states |
|---|---|---|
| FinancialMath.CalculateMonthlyPayment | services/financialMath.ts:4-22 | A zero annual rate gives principal / (termYears·12), for any positive term. A positive rate with a positive principal gives a payment strictly above the first month's interest P·r. A positive principal always gives a positive payment. |
| FinancialMath.AnnuityFactorExceedsRate | services/financialMath.ts:16-19 | For a growth factor (1+r)^n > 1, the annuity formula's payment exceeds the interest P·r on a positive principal. |
| FinancialMath.PowAboveOne | services/financialMath.ts:18-19 | A base above one raised to a power n ≥ 1 is at least the base, so the formula's denominator (1+r)^n − 1 is positive. |
| FinancialMath.Step | services/financialMath.ts:38-59 | One iteration emits the record numbered with the current month and moves to the next month. It carries the record's remaining balance and payment into the next iteration, because the source reassigns `monthlyPayment` in place. |
| FinancialMath.StepInvariants | services/financialMath.ts:38-51 | The interest is the balance times the monthly rate. The principal portion plus the new balance equals the old balance. The new balance is 0 or at least 0.01. When the short branch fires, payment = principal + interest and the balance is 0. Otherwise the payment is unchanged and principal + interest exceeds it by less than 0.01, and only when the balance was snapped. |
| FinancialMath.Run | services/financialMath.ts:35-60 | The loop from any state emits records numbered consecutively from the state's month and never passes the last month. |
| FinancialMath.GenerateAmortizationSchedule | services/financialMath.ts:24-63 | There are at most termYears·12 records, numbered 1, 2, … in order. The schedule is empty exactly when the principal is not positive or the term is under one month (termYears·12 < 1), whatever the payment. |
| FinancialMath.Iterate | services/financialMath.ts:38-59 | The loop body as written, with its in-place updates, performs exactly one step. |
| FinancialMath.GenerateSchedule | services/financialMath.ts:24-63 | The imperative loop, with its early `break` and reassigned payment, returns exactly the schedule of the recursive model. |
| ScheduleFacts.RunSnapsResidue | services/financialMath.ts:48-51 | Every record emitted by the loop from any state has a balance of 0 or at least 0.01. |
| ScheduleFacts.RunEndsAtZero | services/financialMath.ts:36-51 | In the loop from any state, every record except the last leaves at least 0.01 outstanding. |
| ScheduleFacts.RunInterestAt | services/financialMath.ts:38 | Record k's interest is the balance before record k times the rate. |
| ScheduleFacts.RunInterest | services/financialMath.ts:38 | Every record of a run charges interest on the balance it started from. |
| ScheduleFacts.RunConservesPrincipal | services/financialMath.ts:46-50 | After every prefix of a run, the principal portions plus the balance still owed equal the opening balance. |
| ScheduleFacts.RunPayments | services/financialMath.ts:39-51 | Every record of a run obeys the payment rule relative to the payment the run started with. The short branch fires only on the last record. |
| ScheduleFacts.RunStopsEarlyOnlyWhenPaidOff | services/financialMath.ts:35-36 | If the balance after the last record is still positive, the loop ran to the end of the term. |
| ScheduleFacts.ScheduleResidueFree | services/financialMath.ts:48-51 | Every remaining balance in the schedule is exactly 0 or at least 0.01. |
| ScheduleFacts.ScheduleZeroBalanceIsLast | services/financialMath.ts:35-51 | Only the last record may have a zero balance. A schedule shorter than termYears·12 records ends with the balance no longer positive. |
| ScheduleFacts.ScheduleInterest | services/financialMath.ts:32-38 | Each record's interest is the balance before that month times annualRate/100/12. |
| ScheduleFacts.ScheduleConservesPrincipal | services/financialMath.ts:46-50 | After any number of records, the principal portions paid plus the balance owed equal the original principal. This holds through the correction and the residue fold. |
| ScheduleFacts.SchedulePayments | services/financialMath.ts:39-51 | A record where the balance was below the payment pays principal + interest, closes at 0 and is the last record. Every other record pays the caller's payment, and principal + interest exceeds it by less than one cent and only on a snapped record. A payment covering the interest never lets the balance grow. |
| ScheduleFacts.FirstPrincipalPositive | services/financialMath.ts:38-39 | With a positive rate and principal and a positive whole-month term, the schedule for the calculated payment is non-empty and its first principal portion is positive. |
| Annuity.PresentValueClosedForm | services/financialMath.ts:16-19 | For r > 0: PV·r·(1+r)^n = m·((1+r)^n − 1), which is the annuity formula solved for the principal. |
| Annuity.PresentValueZeroRate | services/financialMath.ts:12-14 | At a zero rate, n payments of m are worth n·m, which matches the straight-line branch. |
| Annuity.PresentValueLinear | services/financialMath.ts:16-19 | The present value is the payment times the present value of a unit payment. |
| Annuity.PresentValueIncreasing | services/financialMath.ts:16-19 | For a positive payment, every additional period strictly increases the present value. |
| Annuity.PresentValueMonotone | services/financialMath.ts:16-19 | For a positive payment, more periods never give a smaller present value. |
| Annuity.AnnuityEquation | services/financialMath.ts:16-19 | For a positive rate, (1+r)^n > 1 and payment·((1+r)^n − 1) = P·r·(1+r)^n. |
| Annuity.CalculatedPaymentPresentValue | services/financialMath.ts:4-22 | In both branches, discounting the calculated payment over the term gives back the principal. |
| Annuity.PaymentRepaysPrincipal | services/financialMath.ts:4-22 | A payment's present value over the term equals the principal if and only if it is the calculated payment. |
| Annuity.LastPeriodPaysLevelPayment | services/financialMath.ts:41-51 | A balance of m/(1+r) is closed by a payment of exactly m, split exactly into principal and interest. |
| Annuity.FullPaymentStep | services/financialMath.ts:38-51 | A balance that covers the payment and leaves at least a cent takes the full payment with no correction and no snap. |
| Annuity.FullPeriodBalances | services/financialMath.ts:41-48 | Under the side conditions, every balance before the last covers the payment, and the balance after it is at least a cent. |
| Annuity.RunRetiresPresentValue | services/financialMath.ts:35-60 | If k = 1, or if PV(1) ≥ 0.01 and PV(2) ≥ m for the payment m, then from the present value PV(k) of k level payments the loop makes exactly those k payments. Each splits exactly, and the balance after payment j is the present value of the k−1−j payments left. |
| Annuity.RunRetiresFullPeriod | services/financialMath.ts:35-60 | For k ≥ 2, if PV(1) ≥ 0.01 and PV(2) ≥ m, the same: from PV(k) the loop makes one full period followed by the remaining k − 1 payments. |
| Annuity.NoShortcuts | services/financialMath.ts:41-51 | A payment of at least 0.01·(1+r), with (1+r)² ≤ 2+r, keeps the last balance at a cent or more and the second-to-last balance at or above the payment. So neither correction fires early. |
| Annuity.AnnuityScheduleRetires | services/financialMath.ts:24-63 | Under those side conditions, the schedule for the calculated payment retires it level payment by level payment. |
| Annuity.AnnuityScheduleRunsFullTerm | services/financialMath.ts:24-63 | Under those side conditions, the schedule for the calculated payment has exactly termYears·12 records, ends at a balance of 0, and every record pays exactly that payment, split exactly into principal and interest. |
| Annuity.RunFromPresentValueCloses | services/financialMath.ts:35-60 | From the present value of k level payments, for any non-negative rate and positive payment, the loop emits between 1 and k records and the last leaves a balance of exactly 0. |
| Annuity.AnnuityScheduleClosesAtZero | services/financialMath.ts:24-63 | For every positive principal, non-negative rate and whole-month term, the schedule of the calculated payment has 1 to termYears·12 records, ends at a balance of exactly 0, and its principal portions add up to the principal. No side conditions are needed. |
| Annuity.AnnuityScheduleTotals | services/financialMath.ts:24-63 | Under those side conditions, the payments add up to n·m and the interest to n·m − principal. |
| Text.SplitJoin | services/csvExporter.ts:21-24 | Cutting a join at its separator gives the parts back when no part contains the separator. |
| Text.JoinSeparatorFree | services/csvExporter.ts:21-24 | A join contains no other character that none of its parts contains. |
| Text.NatToStringRoundTrip | services/csvExporter.ts:15 | The month's decimal rendering reads back as the month. |
| Fixed.ToFixed2RoundTrip | services/csvExporter.ts:16-19 | `toFixed(2)` produces an optional sign, digits, a point and exactly two digits. It reads back as the value rounded to the cent, which is within half a cent of the input. |
| Fixed.RoundedWithinHalfCent | services/csvExporter.ts:16-19 | Rounding to two decimals moves a value by at most 0.005. |
| CsvExporter.ExportToCSV | services/csvExporter.ts:4-24 | There is no output exactly when the data is absent or empty. |
| CsvExporter.BuildCsv | services/csvExporter.ts:4-24 | The push loop with its final `'\n'` join produces exactly the exported text, including the empty-data guard. |
| CsvExporter.RowFieldsFree | services/csvExporter.ts:14-20 | No field of a record line contains a comma or a newline. |
| CsvExporter.RowLayout | services/csvExporter.ts:14-21 | A record line splits at its commas into exactly month, payment, principal, interest and remaining balance, in that order. Every amount has two decimals, and the line holds no newline. |
| CsvExporter.RowRoundTrip | services/csvExporter.ts:14-21 | Reading a record line gives the record with its month exact and its amounts rounded to the cent. |
| CsvExporter.FormatRowsLayout | services/csvExporter.ts:13-21 | Line i of the record lines is record i's line, in input order, and no record line contains a newline. |
| CsvExporter.FormatRowsRoundTrip | services/csvExporter.ts:13-21 | Reading the record lines gives the records in order, rounded to the cent. |
| CsvExporter.ExportSplitsIntoLines | services/csvExporter.ts:24 | The exported text splits at its newlines into exactly the header line followed by the record lines. |
| CsvExporter.ExportEndsWithoutNewline | services/csvExporter.ts:24 | The exported text ends with the last record's last character, not with a newline. |
| CsvExporter.ExportLayout | services/csvExporter.ts:10-24 | The text has exactly |data| + 1 lines. The first is the headers joined with commas, line i+1 is record i's line, and there is no trailing newline. |
| CsvExporter.ExportRoundTrip | services/csvExporter.ts:4-24 | Reading the exported text back gives the header line and every record, in order, with amounts rounded to the cent. |
| AmortizationCalculator.Calculate | components/AmortizationCalculator.tsx:47-72 | The error is the invalid-input message exactly when some input is absent (NaN) or not positive, and it is empty exactly when all are valid. A result exists exactly when the inputs are valid and the term is at least one month; otherwise the result is null. |
| AmortizationCalculator.ValidInputsGiveResult | components/AmortizationCalculator.tsx:52-61 | Valid inputs whose term is a whole number of months, at least one, always yield a result: the empty-schedule guard never fires for them. |
| AmortizationCalculator.SubMonthTermGivesNothing | components/AmortizationCalculator.tsx:52-61 | A valid term under one month passes the input guard and clears the error, but the schedule is empty for every payment, so the empty-schedule guard returns null: no result and no error message. |
| AmortizationCalculator.ResultFacts | components/AmortizationCalculator.tsx:52-64 | A result implies valid inputs and a positive monthly rate, so the engine's zero-rate branch is unreachable from here. The result holds the engine's payment, which exceeds the first month's interest, and the engine's schedule of 1 to termYears·12 records. totalPayment = payment·term·12, which is the number of payments times the payment, and totalInterest = totalPayment − principal. |
| AmortizationCalculator.TotalsMatchFullTermSchedule | components/AmortizationCalculator.tsx:63-64 | When the annuity schedule runs its full term, the displayed totals equal the sums of the schedule's payment and interest columns. |
| AmortizationCalculator.TotalPaymentIsNotScheduleSum | components/AmortizationCalculator.tsx:63 | In general, totalPayment is not the sum of the payments. At 1200 % a year over one year on 4095, the payment is 4096 but the loan closes in one month paying 8190, while totalPayment is 49152. |
| AmortizationCalculator.SchedulePreview | components/AmortizationCalculator.tsx:115 | The preview holds min(12, length) records, each equal to the schedule's record at the same position. |
| AmortizationCalculator.PreviewIsPrefix | components/AmortizationCalculator.tsx:115 | The preview is a prefix of the schedule, and it is the whole schedule exactly when that has at most 12 records. |

## Left out

- IEEE-754 double precision: amounts are exact reals, so no rounding error accumulates and the residue snap fires only on genuine sub-cent balances (or on none at all).
- Unbounded terms: the source puts no upper bound on the term. A term such as 1e308 years makes `termYears * 12` Infinity and the payment NaN, so the `remainingBalance <= 0` break never fires and the loop never ends; with an exact real term the model's loop always terminates.
- FinancialMath.CalculateMonthlyPayment: with a positive rate, requires the term to be a whole number of months. A term such as 2.55 years (30.6 months) needs `Math.pow` at a non-integer exponent, which exact reals cannot express. It also requires a non-negative rate and a positive term: a zero-length term divides by zero in the source, and its only caller admits positive inputs only.
- AmortizationCalculator.Calculate: requires a valid term of at least one month to be a whole number of months, for the same reason. Invalid inputs and terms under one month are covered for every value. `parseFloat` of the three text fields is outside the model (absent stands for NaN).
- AmortizationCalculator.ValidInputsGiveResult: covers whole-month terms of at least one month only, because `Calculate` models only those among valid terms of a month or more. For 0 < term < 1/12 year the source's line-61 guard fires and returns null with an empty error; `AmortizationCalculator.SubMonthTermGivesNothing` states that case.
- `toFixed(2)` is modelled only below 10^21 in magnitude (no exponent form), with exact ties rounded away from zero as in ECMAScript; binary tie-breaking is not modelled.
- Annuity.RunRetiresPresentValue, Annuity.RunRetiresFullPeriod: for k ≥ 2 they require PV(1) ≥ 0.01 and PV(2) ≥ m. Without them the short-payment branch can close the loan early: at r = 1 and m = 4, PV(2) = 3 is below the payment and one month closes it. `Annuity.RunFromPresentValueCloses` covers every case for closing at zero.
- Annuity.AnnuityScheduleRunsFullTerm: the record count of exactly termYears·12 holds only under its side conditions, a payment of at least 0.01·(1+r) and (1+r)² ≤ 2+r (a monthly rate below about 61.8 %); outside them the loop can finish in fewer months through the residue snap or the short-payment branch. Closing at zero needs no condition (`Annuity.AnnuityScheduleClosesAtZero`).
- The browser download in services/csvExporter.ts:25-35 (Blob, object URL, anchor click) and the `console.error` at line 6: I/O; the model returns the text, or nothing.
- The `filename` parameter of `exportToCSV`: used only by the download.
- React state: `setError` becomes the `error` field of the returned value, and `useMemo` caching and re-rendering are not modelled.
- `handleDownload`, the `Intl.NumberFormat` currency display and the rest of the component's markup: presentation.
- components/Layout.tsx, components/SeoArticle.tsx and App.tsx: presentation only, with no logic.
- The `AmortizationData` type definition file is not part of this model; the record follows the object literal the schedule pushes.

=== FILE: amortization_calculator.dfy ===
/** The calculator component's computation: validate the three parsed
    inputs, compute the payment and the schedule, and derive the totals it
    displays; plus the twelve-record preview of the schedule. Parsing the
    text fields and formatting the amounts for display are outside the
    model, so the inputs arrive as numbers, with `None` for a field that
    does not parse (NaN). */
module AmortizationCalculator {

  import opened Wrappers
  import opened Types
  import opened FinancialMath
  import opened ScheduleFacts
  import opened Annuity

  datatype CalculationResult = CalculationResult(
    monthlyPayment: real,
    totalInterest: real,
    totalPayment: real,
    schedule: seq<AmortizationData>)

  /** What the memoised computation yields (`results`, `None` for null) and
      what it leaves in the error state. */
  datatype Memo = Memo(results: Option<CalculationResult>, error: string)

  const InvalidInputMessage: string := "Please enter valid positive numbers for all fields."

  /** The number of records the preview table shows. */
  const PreviewLength: nat := 12

  /** All three inputs are numbers and strictly positive. */
  predicate ValidInputs(principal: Option<real>, rate: Option<real>, term: Option<real>)
  {
    && principal.Some? && rate.Some? && term.Some?
    && principal.value > 0.0 && rate.value > 0.0 && term.value > 0.0
  }

  /** The inputs the model can evaluate: a valid term of at least one month
      is a whole number of months, so that the annuity formula has an
      integer exponent. Invalid inputs and terms under one month are all
      admitted. */
  predicate ModelledTerm(principal: Option<real>, rate: Option<real>, term: Option<real>)
  {
    ValidInputs(principal, rate, term) && term.value * 12.0 >= 1.0 ==> WholeMonths(term.value)
  }

  /** The memoised computation. Invalid inputs set the error message and
      yield no result, without calling the engine; otherwise the error is
      cleared, and a result is produced unless the schedule is empty. A
      term under one month gives an empty schedule whatever the payment
      (`SubMonthTermGivesNothing`), so no payment is computed for it. */
  function Calculate(principal: Option<real>, rate: Option<real>, term: Option<real>): (memo: Memo)
    requires ModelledTerm(principal, rate, term)
    ensures memo.error == InvalidInputMessage <==> !ValidInputs(principal, rate, term)
    ensures memo.error == "" <==> ValidInputs(principal, rate, term)
    ensures memo.results.Some? <==> ValidInputs(principal, rate, term) && term.value * 12.0 >= 1.0
  {
    if principal.None? || rate.None? || term.None?
       || principal.value <= 0.0 || rate.value <= 0.0 || term.value <= 0.0 then
      Memo(None, InvalidInputMessage)
    else
      var p, r, t := principal.value, rate.value, term.value;
      if NumberOfPayments(t) == 0 then Memo(None, "")
      else
        var monthlyPayment := CalculateMonthlyPayment(p, r, t);
        var schedule := GenerateAmortizationSchedule(p, r, t, monthlyPayment);
        if |schedule| == 0 then Memo(None, "")
        else
          var totalPayment := monthlyPayment * t * 12.0;
          var totalInterest := totalPayment - p;
          Memo(Some(CalculationResult(monthlyPayment, totalInterest, totalPayment, schedule)), "")
  }

  /** A valid term under one month (0 < term < 1/12 year) passes the input
      guard and clears the error, but the loop of the schedule runs no
      iteration for any payment, so the empty-schedule guard fires: no
      result and no error message. */
  lemma SubMonthTermGivesNothing(principal: real, rate: real, term: real, payment: real)
    requires principal > 0.0 && rate > 0.0 && 0.0 < term && term * 12.0 < 1.0
    ensures GenerateAmortizationSchedule(principal, rate, term, payment) == []
    ensures Calculate(Some(principal), Some(rate), Some(term)) == Memo(None, "")
  {
  }

  /** Valid inputs with a term of at least one month always produce a
      result: the schedule of a positive principal is then never empty. */
  lemma ValidInputsGiveResult(principal: Option<real>, rate: Option<real>, term: Option<real>)
    requires ValidInputs(principal, rate, term) && term.value * 12.0 >= 1.0
    requires WholeMonths(term.value)
    ensures Calculate(principal, rate, term).results.Some?
  {
  }

  /** A result comes only from valid inputs, with a strictly positive
      monthly rate, so the engine's zero-rate branch is never reached from
      here. The payment is the engine's, it exceeds the first month's
      interest, the schedule is the engine's for that payment, and the
      totals are payment × term × 12, which is the number of payments
      times the payment, and that minus the principal. */
  lemma ResultFacts(principal: Option<real>, rate: Option<real>, term: Option<real>)
    requires ModelledTerm(principal, rate, term)
    requires Calculate(principal, rate, term).results.Some?
    ensures ValidInputs(principal, rate, term) && WholeMonths(term.value)
    ensures var res := Calculate(principal, rate, term).results.value;
            var p, r, t := principal.value, rate.value, term.value;
            && MonthlyRate(r) > 0.0
            && res.monthlyPayment == CalculateMonthlyPayment(p, r, t)
            && res.monthlyPayment > p * MonthlyRate(r)
            && res.schedule == GenerateAmortizationSchedule(p, r, t, res.monthlyPayment)
            && 1 <= |res.schedule| <= NumberOfPayments(t)
            && res.totalPayment == res.monthlyPayment * NumberOfPayments(t) as real
            && res.totalInterest == res.totalPayment - p
  {
    var t := term.value;
    PaymentsOverTerm(Calculate(principal, rate, term).results.value.monthlyPayment, t);
  }

  /** When the loan runs its full term on level payments (the conditions of
      `AnnuityScheduleRunsFullTerm`), the displayed totals are the sums over
      the schedule: total payments is the sum of the payment column and
      total interest the sum of the interest column. */
  lemma TotalsMatchFullTermSchedule(principal: real, rate: real, term: real)
    requires principal > 0.0 && rate > 0.0 && term > 0.0 && WholeMonths(term)
    requires var r := MonthlyRate(rate);
             && CalculateMonthlyPayment(principal, rate, term) >= ResidueThreshold * (1.0 + r)
             && (1.0 + r) * (1.0 + r) <= 2.0 + r
    ensures var res := Calculate(Some(principal), Some(rate), Some(term)).results;
            && res.Some?
            && res.value.totalPayment == SumPayment(res.value.schedule)
            && res.value.totalInterest == SumInterest(res.value.schedule)
  {
    var m := CalculateMonthlyPayment(principal, rate, term);
    var schedule := GenerateAmortizationSchedule(principal, rate, term, m);
    var total := m * term * 12.0;
    assert |schedule| >= 1;
    assert Calculate(Some(principal), Some(rate), Some(term)).results.Some?;
    assert Calculate(Some(principal), Some(rate), Some(term)).results.value.schedule == schedule;
    assert Calculate(Some(principal), Some(rate), Some(term)).results.value.totalPayment == total;
    AnnuityScheduleTotals(principal, rate, term);
    PaymentsOverTerm(m, term);
  }

  lemma PaymentsOverTerm(payment: real, termYears: real)
    requires WholeMonths(termYears)
    ensures payment * termYears * 12.0 == NumberOfPayments(termYears) as real * payment
  {
    assert payment * termYears * 12.0 == payment * (termYears * 12.0);
  }

  /** The totals are not sums over the schedule in general. For a principal
      of 4095 at 1200 % a year over one year, the monthly rate is 1, the
      payment 4096 exceeds the balance, and the short-payment branch closes
      the loan in the first month with a payment of 8190. The displayed
      total payments is still 12 × 4096 = 49152. */
  lemma TotalPaymentIsNotScheduleSum()
    ensures var res := Calculate(Some(4095.0), Some(1200.0), Some(1.0)).results;
            && res.Some?
            && res.value.monthlyPayment == 4096.0
            && res.value.totalPayment == 49152.0
            && |res.value.schedule| == 1
            && SumPayment(res.value.schedule) == 8190.0
  {
    assert MonthlyRate(1200.0) == 1.0;
    assert Pow(2.0, 12) == 4096.0;
    var m := CalculateMonthlyPayment(4095.0, 1200.0, 1.0);
    assert m == 4096.0;
    var s := LoopState(1, 4095.0, 4096.0);
    var p := Step(s, 1.0);
    assert p.next == LoopState(2, 0.0, 8190.0);
    assert Run(s, 1.0, 12) == [p.row];
  }

  /** The preview table: the first twelve records, or all of them when
      there are fewer, in schedule order. */
  function SchedulePreview(schedule: seq<AmortizationData>): (preview: seq<AmortizationData>)
    ensures |preview| == if |schedule| < PreviewLength then |schedule| else PreviewLength
    ensures forall k :: 0 <= k < |preview| ==> preview[k] == schedule[k]
  {
    if |schedule| <= PreviewLength then schedule else schedule[..PreviewLength]
  }

  /** The preview is a prefix of the schedule, and the whole schedule when
      it has at most twelve records. */
  lemma PreviewIsPrefix(schedule: seq<AmortizationData>)
    ensures var preview := SchedulePreview(schedule);
            && preview + schedule[|preview|..] == schedule
            && (|schedule| <= PreviewLength <==> preview == schedule)
  {
  }

}

=== FILE: annuity.dfy ===
/** Why the annuity payment is the right one: in exact arithmetic it is the
    unique level payment whose discounted stream repays the principal, and,
    fed into the schedule loop, it produces one record per month of the term,
    all paying that amount, closing at a balance of exactly zero. */
module Annuity {

  import opened Types
  import opened FinancialMath
  import opened ScheduleFacts

  /** The balance that `periods` further payments of `payment` retire
      exactly at monthly rate `rate`: one month of interest on it plus the
      payment is the balance one payment later. */
  function DiscountedPayments(payment: real, rate: real, periods: nat): real
    requires rate >= 0.0
  {
    if periods == 0 then 0.0
    else (DiscountedPayments(payment, rate, periods - 1) + payment) / (1.0 + rate)
  }

  /** The present value of `periods` level payments. It is
      `DiscountedPayments` under a non-recursive name, kept for verification
      cost only: the verifier unfolds a recursive function to different
      depths in a lemma's contract and in its body, and products of such
      differently unfolded terms make the arithmetic proofs below far more
      expensive. Through this name every fact is about the same term. */
  function PresentValue(payment: real, rate: real, periods: nat): real
    requires rate >= 0.0
  {
    DiscountedPayments(payment, rate, periods)
  }

  /** With one more payment to go, a month's growth of the present value is
      the previous present value plus the payment. */
  lemma PresentValueStep(payment: real, rate: real, periods: nat)
    requires rate >= 0.0
    ensures PresentValue(payment, rate, periods + 1) * (1.0 + rate)
            == PresentValue(payment, rate, periods) + payment
  {
  }

  /** `PresentValueStep`, indexed by the longer of the two horizons. */
  lemma PresentValueStepBack(payment: real, rate: real, periods: nat)
    requires rate >= 0.0 && periods >= 1
    ensures PresentValue(payment, rate, periods) * (1.0 + rate)
            == PresentValue(payment, rate, periods - 1) + payment
  {
  }

  /** Closed form for a positive rate: PV·r·q^n = m·(q^n − 1), q = 1 + r. */
  lemma {:induction false} PresentValueClosedForm(payment: real, rate: real, periods: nat)
    requires rate > 0.0
    ensures PresentValue(payment, rate, periods) * rate * Pow(1.0 + rate, periods)
            == payment * (Pow(1.0 + rate, periods) - 1.0)
    decreases periods
  {
    if periods > 0 {
      var k := periods - 1;
      PresentValueClosedForm(payment, rate, k);
      PresentValueStep(payment, rate, k);
      ClosedFormStep(PresentValue(payment, rate, k + 1), PresentValue(payment, rate, k),
                     payment, rate, Pow(1.0 + rate, k));
      assert k + 1 == periods;
    }
  }

  /** The algebra of one induction step of the closed form. */
  lemma ClosedFormStep(pv: real, prev: real, payment: real, rate: real, g: real)
    requires pv * (1.0 + rate) == prev + payment
    requires prev * rate * g == payment * (g - 1.0)
    ensures pv * rate * ((1.0 + rate) * g) == payment * ((1.0 + rate) * g - 1.0)
  {
    calc {
      pv * rate * ((1.0 + rate) * g);
      (pv * (1.0 + rate)) * (rate * g);
      (prev + payment) * (rate * g);
      prev * rate * g + payment * rate * g;
    }
  }

  /** With a zero rate the present value is the undiscounted sum n·m. */
  lemma {:induction false} PresentValueZeroRate(payment: real, periods: nat)
    ensures PresentValue(payment, 0.0, periods) == periods as real * payment
    decreases periods
  {
    if periods > 0 {
      PresentValueZeroRate(payment, periods - 1);
      PresentValueStepBack(payment, 0.0, periods);
    }
  }

  /** The present value is linear in the payment. */
  lemma {:induction false} PresentValueLinear(payment: real, rate: real, periods: nat)
    requires rate >= 0.0
    ensures PresentValue(payment, rate, periods) == payment * PresentValue(1.0, rate, periods)
    decreases periods
  {
    if periods > 0 {
      var k := periods - 1;
      PresentValueLinear(payment, rate, k);
      PresentValueStep(payment, rate, k);
      PresentValueStep(1.0, rate, k);
      LinearStep(PresentValue(payment, rate, k + 1), PresentValue(1.0, rate, k + 1),
                 PresentValue(payment, rate, k), PresentValue(1.0, rate, k),
                 payment, 1.0 + rate);
      assert k + 1 == periods;
    }
  }

  /** The algebra of one induction step of linearity. */
  lemma LinearStep(a: real, b: real, prevA: real, prevB: real, payment: real, q: real)
    requires q > 0.0
    requires a * q == prevA + payment && b * q == prevB + 1.0 && prevA == payment * prevB
    ensures a == payment * b
  {
    assert a * q == (payment * b) * q;
    CancelFactor(a, payment * b, q);
  }

  /** For a positive payment the present value grows with every period. */
  lemma {:induction false} PresentValueIncreasing(payment: real, rate: real, periods: nat)
    requires rate >= 0.0 && payment > 0.0
    ensures PresentValue(payment, rate, periods) < PresentValue(payment, rate, periods + 1)
    decreases periods
  {
    PresentValueStep(payment, rate, periods);
    if periods == 0 {
      PositiveQuotient(PresentValue(payment, rate, 1), payment, 1.0 + rate);
    } else {
      PresentValueIncreasing(payment, rate, periods - 1);
      assert PresentValue(payment, rate, periods - 1 + 1) == PresentValue(payment, rate, periods);
      PresentValueStepBack(payment, rate, periods);
      var a, b, c := PresentValue(payment, rate, periods + 1), PresentValue(payment, rate, periods),
                     PresentValue(payment, rate, periods - 1);
      DifferenceStep(a, b, c, payment, 1.0 + rate);
      PositiveQuotient(a - b, b - c, 1.0 + rate);
    }
  }

  /** Successive present values differ by a factor q. */
  lemma DifferenceStep(a: real, b: real, c: real, payment: real, q: real)
    requires a * q == b + payment && b * q == c + payment
    ensures (a - b) * q == b - c
  {
  }

  /** A factor of a positive product with a positive co-factor is positive. */
  lemma PositiveQuotient(x: real, product: real, q: real)
    requires q > 0.0 && product > 0.0 && x * q == product
    ensures x > 0.0
  {
    if x <= 0.0 {
      ProductNonNegative(-x, q);
    }
  }

  lemma {:induction false} PresentValueMonotone(payment: real, rate: real, i: nat, j: nat)
    requires rate >= 0.0 && payment > 0.0 && i <= j
    ensures PresentValue(payment, rate, i) <= PresentValue(payment, rate, j)
    decreases j - i
  {
    if i < j {
      PresentValueIncreasing(payment, rate, i);
      PresentValueMonotone(payment, rate, i + 1, j);
    }
  }

  lemma AnnuityEquation(principal: real, annualRate: real, termYears: real)
    requires annualRate > 0.0 && termYears > 0.0 && WholeMonths(termYears)
    ensures var r := MonthlyRate(annualRate);
            var g := Pow(1.0 + r, NumberOfPayments(termYears));
            g > 1.0 && CalculateMonthlyPayment(principal, annualRate, termYears) * (g - 1.0) == principal * (r * g)
  {
    var r := MonthlyRate(annualRate);
    var n := NumberOfPayments(termYears);
    PowAboveOne(1.0 + r, n);
  }

  /** Discounting the calculated payment over the term gives back the
      principal, in both branches of the calculator. */
  lemma CalculatedPaymentPresentValue(principal: real, annualRate: real, termYears: real)
    requires annualRate >= 0.0 && termYears > 0.0 && WholeMonths(termYears)
    ensures PresentValue(CalculateMonthlyPayment(principal, annualRate, termYears),
                         MonthlyRate(annualRate), NumberOfPayments(termYears)) == principal
  {
    var r := MonthlyRate(annualRate);
    var n := NumberOfPayments(termYears);
    var m := CalculateMonthlyPayment(principal, annualRate, termYears);
    if r == 0.0 {
      PresentValueZeroRate(m, n);
    } else {
      var g := Pow(1.0 + r, n);
      var pv := PresentValue(m, r, n);
      assert m * (g - 1.0) == principal * (r * g) && g > 1.0 by {
        AnnuityEquation(principal, annualRate, termYears);
      }
      assert pv * (r * g) == m * (g - 1.0) by {
        PresentValueClosedForm(m, r, n);
      }
      assert r * g > 0.0;
      CancelFactor(pv, principal, r * g);
    }
  }

  /** The payment `CalculateMonthlyPayment` returns is exactly the one whose
      present value over the term is the principal, and no other payment
      has that property. */
  lemma PaymentRepaysPrincipal(principal: real, annualRate: real, termYears: real, payment: real)
    requires annualRate >= 0.0 && termYears > 0.0 && WholeMonths(termYears)
    ensures PresentValue(payment, MonthlyRate(annualRate), NumberOfPayments(termYears)) == principal
            <==> payment == CalculateMonthlyPayment(principal, annualRate, termYears)
  {
    var r := MonthlyRate(annualRate);
    var n := NumberOfPayments(termYears);
    var m := CalculateMonthlyPayment(principal, annualRate, termYears);
    var unit := PresentValue(1.0, r, n);
    CalculatedPaymentPresentValue(principal, annualRate, termYears);
    PresentValueLinear(payment, r, n);
    PresentValueLinear(m, r, n);
    PresentValueIncreasing(1.0, r, 0);
    PresentValueMonotone(1.0, r, 1, n);
    assert unit > 0.0;
    assert payment * unit - m * unit == (payment - m) * unit;
  }

  /** `rows` pays `payment` in each of exactly `periods` records, each one
      exactly principal plus interest, and after record k the balance still
      owed is the present value of the periods − 1 − k payments left. */
  ghost predicate RetiresLevelPayments(rows: seq<AmortizationData>, payment: real, rate: real, periods: nat)
    requires rate >= 0.0
  {
    && |rows| == periods
    && forall k :: 0 <= k < |rows| ==>
         && rows[k].payment == payment
         && rows[k].payment == rows[k].principal + rows[k].interest
         && rows[k].remainingBalance == PresentValue(payment, rate, periods - 1 - k)
  }

  /** The last period: a balance of m/(1+r) is closed by a payment of exactly
      m, through the short-payment branch when r > 0 and through the residue
      snap of an exact zero when r = 0. */
  lemma LastPeriodPaysLevelPayment(month: nat, payment: real, rate: real)
    requires rate >= 0.0 && payment > 0.0
    ensures var p := Step(LoopState(month, PresentValue(payment, rate, 1), payment), rate);
            && p.row.payment == payment
            && p.row.payment == p.row.principal + p.row.interest
            && p.row.remainingBalance == 0.0
  {
    var b := PresentValue(payment, rate, 1);
    PresentValueStep(payment, rate, 0);
    assert b * (1.0 + rate) == payment;
    PresentValueIncreasing(payment, rate, 0);
    if rate > 0.0 {
      assert b * rate > 0.0;
      assert b < payment;
    } else {
      assert b == payment;
    }
  }

  /** A month whose balance covers the payment and leaves at least one
      cent: the full payment applies and nothing is snapped. */
  lemma FullPaymentStep(month: nat, balance: real, after: real, payment: real, rate: real)
    requires balance >= payment && after >= ResidueThreshold
    requires balance * (1.0 + rate) == after + payment
    ensures Step(LoopState(month, balance, payment), rate)
            == Period(AmortizationData(month, payment, payment - MonthlyInterest(balance, rate),
                                       MonthlyInterest(balance, rate), after),
                      LoopState(month + 1, after, payment))
  {
  }

  /** A full period before the last: the balance PV(j), j ≥ 2, is at least
      the payment, and the balance after a full payment is PV(j − 1), at
      least one cent, so `FullPaymentStep` applies. */
  lemma FullPeriodBalances(payment: real, rate: real, periods: nat)
    requires rate >= 0.0 && payment > 0.0 && periods >= 2
    requires PresentValue(payment, rate, 1) >= ResidueThreshold && PresentValue(payment, rate, 2) >= payment
    ensures PresentValue(payment, rate, periods) >= payment
    ensures PresentValue(payment, rate, periods - 1) >= ResidueThreshold
  {
    PresentValueMonotone(payment, rate, 2, periods);
    PresentValueMonotone(payment, rate, 1, periods - 1);
  }

  /** Starting from the present value of `periods` level payments, the loop
      makes exactly those payments and closes the loan. */
  lemma {:induction false} RunRetiresPresentValue(month: nat, last: nat, payment: real, rate: real, periods: nat)
    requires rate >= 0.0 && payment > 0.0 && periods >= 1 && month + periods <= last + 1
    requires periods == 1
             || (PresentValue(payment, rate, 1) >= ResidueThreshold && PresentValue(payment, rate, 2) >= payment)
    ensures RetiresLevelPayments(
              Run(LoopState(month, PresentValue(payment, rate, periods), payment), rate, last),
              payment, rate, periods)
    decreases periods, 1
  {
    PresentValueIncreasing(payment, rate, 0);
    PresentValueMonotone(payment, rate, 1, periods);
    if periods == 1 {
      var s := LoopState(month, PresentValue(payment, rate, 1), payment);
      var p := Step(s, rate);
      LastPeriodPaysLevelPayment(month, payment, rate);
      assert Run(s, rate, last) == [p.row];
    } else {
      RunRetiresFullPeriod(month, last, payment, rate, periods);
    }
  }

  /** The inductive step of `RunRetiresPresentValue`: a full period, then
      the loop retiring the remaining periods − 1 payments. */
  lemma {:induction false} RunRetiresFullPeriod(month: nat, last: nat, payment: real, rate: real, periods: nat)
    requires rate >= 0.0 && payment > 0.0 && periods >= 2 && month + periods <= last + 1
    requires PresentValue(payment, rate, 1) >= ResidueThreshold && PresentValue(payment, rate, 2) >= payment
    ensures RetiresLevelPayments(
              Run(LoopState(month, PresentValue(payment, rate, periods), payment), rate, last),
              payment, rate, periods)
    decreases periods, 0
  {
    var b := PresentValue(payment, rate, periods);
    var after := PresentValue(payment, rate, periods - 1);
    var row := AmortizationData(month, payment, payment - MonthlyInterest(b, rate), MonthlyInterest(b, rate), after);
    var next := LoopState(month + 1, after, payment);
    FullPeriodBalances(payment, rate, periods);
    PresentValueStepBack(payment, rate, periods);
    FullPaymentStep(month, b, after, payment, rate);
    RunUnfold(LoopState(month, b, payment), rate, last);
    var rows := Run(LoopState(month, b, payment), rate, last);
    var rest := Run(next, rate, last);
    assert rows == [row] + rest;
    RunRetiresPresentValue(month + 1, last, payment, rate, periods - 1);
    forall k | 1 <= k < |rows|
      ensures rows[k].remainingBalance == PresentValue(payment, rate, periods - 1 - k)
    {
      assert rows[k] == rest[k - 1];
    }
  }

  /** The two conditions under which the loop never takes a shortcut on a
      level payment m: the last balance m/(1+r) is at least a cent, and the
      balance two payments from the end, m(2+r)/(1+r)², still covers m. */
  lemma NoShortcuts(payment: real, rate: real)
    requires rate >= 0.0 && payment >= ResidueThreshold * (1.0 + rate)
    requires (1.0 + rate) * (1.0 + rate) <= 2.0 + rate
    ensures PresentValue(payment, rate, 1) >= ResidueThreshold
    ensures PresentValue(payment, rate, 2) >= payment
  {
    PresentValueStep(payment, rate, 0);
    PresentValueStep(payment, rate, 1);
    LastBalanceCoversCent(PresentValue(payment, rate, 1), payment, 1.0 + rate);
    SecondLastBalanceCoversPayment(PresentValue(payment, rate, 1), PresentValue(payment, rate, 2),
                                   payment, rate);
  }

  lemma LastBalanceCoversCent(one: real, payment: real, q: real)
    requires q > 0.0 && one * q == 0.0 + payment && payment >= ResidueThreshold * q
    ensures one >= ResidueThreshold
  {
    if one < ResidueThreshold {
      ProductNonNegative(ResidueThreshold - one, q);
    }
  }

  lemma SecondLastBalanceCoversPayment(one: real, two: real, payment: real, rate: real)
    requires rate >= 0.0 && payment >= 0.0
    requires one * (1.0 + rate) == 0.0 + payment && two * (1.0 + rate) == one + payment
    requires (1.0 + rate) * (1.0 + rate) <= 2.0 + rate
    ensures two >= payment
  {
    var q := 1.0 + rate;
    assert two * q * q == payment * (2.0 + rate) by {
      assert two * q * q == (one + payment) * q;
    }
    ProductNonNegative(payment, 2.0 + rate - q * q);
    ProductPositive(q, q);
    assert (two - payment) * (q * q) == payment * (2.0 + rate - q * q);
    NonNegativeFactor(two - payment, q * q);
  }

  lemma NonNegativeFactor(x: real, y: real)
    requires y > 0.0 && x * y >= 0.0
    ensures x >= 0.0
  {
    if x < 0.0 {
      ProductPositive(-x, y);
    }
  }

  /** The schedule for the calculated payment retires it level payment by
      level payment, under the side conditions of `NoShortcuts`. */
  lemma AnnuityScheduleRetires(principal: real, annualRate: real, termYears: real)
    requires principal > 0.0 && annualRate >= 0.0 && termYears > 0.0 && WholeMonths(termYears)
    requires var r := MonthlyRate(annualRate);
             && CalculateMonthlyPayment(principal, annualRate, termYears) >= ResidueThreshold * (1.0 + r)
             && (1.0 + r) * (1.0 + r) <= 2.0 + r
    ensures var m := CalculateMonthlyPayment(principal, annualRate, termYears);
            RetiresLevelPayments(GenerateAmortizationSchedule(principal, annualRate, termYears, m),
                                 m, MonthlyRate(annualRate), NumberOfPayments(termYears))
  {
    var r := MonthlyRate(annualRate);
    var n := NumberOfPayments(termYears);
    var m := CalculateMonthlyPayment(principal, annualRate, termYears);
    CalculatedPaymentPresentValue(principal, annualRate, termYears);
    NoShortcuts(m, r);
    RunRetiresPresentValue(1, n, m, r, n);
  }

  /** A month on a balance that covers the payment: the full payment
      applies, and the balance left is `after` (the balance grown by one
      month of interest, minus the payment), snapped to zero below a cent. */
  lemma FullPaymentBalance(month: nat, balance: real, after: real, payment: real, rate: real)
    requires balance >= payment
    requires balance * (1.0 + rate) == after + payment
    ensures var p := Step(LoopState(month, balance, payment), rate);
            && p.next.payment == payment
            && p.row.remainingBalance == (if after < ResidueThreshold then 0.0 else after)
  {
    assert balance - (payment - MonthlyInterest(balance, rate)) == after;
  }

  /** Whatever the rate and however small the payment, the loop started
      from the present value of `periods` level payments closes the loan:
      it emits between one and `periods` records, and the last one leaves a
      balance of exactly zero. Each month either takes the short-payment
      branch, which closes the loan, or takes the full payment down to the
      present value of one payment fewer, which the residue snap closes if
      it is under a cent. */
  lemma {:induction false} RunFromPresentValueCloses(month: nat, last: nat, payment: real, rate: real, periods: nat)
    requires rate >= 0.0 && payment > 0.0 && periods >= 1 && month + periods <= last + 1
    ensures var rows := Run(LoopState(month, PresentValue(payment, rate, periods), payment), rate, last);
            && 1 <= |rows| <= periods
            && rows[|rows| - 1].remainingBalance == 0.0
    decreases periods
  {
    var b := PresentValue(payment, rate, periods);
    var s := LoopState(month, b, payment);
    assert b > 0.0 by {
      PresentValueIncreasing(payment, rate, 0);
      PresentValueMonotone(payment, rate, 1, periods);
    }
    if b < payment {
      assert Step(s, rate).row.remainingBalance == 0.0 by {
        StepInvariants(s, rate);
      }
      ClosesThisMonth(s, rate, last);
    } else {
      var after := PresentValue(payment, rate, periods - 1);
      assert Step(s, rate).row.remainingBalance == (if after < ResidueThreshold then 0.0 else after)
             && Step(s, rate).next.payment == payment by {
        PresentValueStepBack(payment, rate, periods);
        FullPaymentBalance(month, b, after, payment, rate);
      }
      if after < ResidueThreshold {
        ClosesThisMonth(s, rate, last);
      } else {
        assert periods >= 2;
        assert Step(s, rate).next == LoopState(month + 1, after, payment);
        RunFromPresentValueCloses(month + 1, last, payment, rate, periods - 1);
        ClosesLater(s, rate, last, periods - 1);
      }
    }
  }

  /** A month that leaves a zero balance is the loop's last. */
  lemma ClosesThisMonth(s: LoopState, rate: real, last: nat)
    requires s.month <= last && s.balance > 0.0
    requires Step(s, rate).row.remainingBalance == 0.0
    ensures Run(s, rate, last) == [Step(s, rate).row]
  {
    RunUnfold(s, rate, last);
  }

  /** A month followed by a run of at most `bound` records that closes at
      zero is a run of at most `bound` + 1 records that closes at zero. */
  lemma ClosesLater(s: LoopState, rate: real, last: nat, bound: nat)
    requires s.month <= last && s.balance > 0.0
    requires var rest := Run(Step(s, rate).next, rate, last);
             1 <= |rest| <= bound && rest[|rest| - 1].remainingBalance == 0.0
    ensures var rows := Run(s, rate, last);
            1 <= |rows| <= bound + 1 && rows[|rows| - 1].remainingBalance == 0.0
  {
    RunUnfold(s, rate, last);
    var rest := Run(Step(s, rate).next, rate, last);
    var rows := Run(s, rate, last);
    assert rows[|rows| - 1] == rest[|rest| - 1];
  }

  /** The schedule of the calculated payment always closes the loan, for
      every positive principal, non-negative rate and whole-month term: it
      is non-empty, has at most termYears·12 records, ends at a balance of
      exactly zero, and its principal portions add up to the principal. */
  lemma AnnuityScheduleClosesAtZero(principal: real, annualRate: real, termYears: real)
    requires principal > 0.0 && annualRate >= 0.0 && termYears > 0.0 && WholeMonths(termYears)
    ensures var m := CalculateMonthlyPayment(principal, annualRate, termYears);
            var schedule := GenerateAmortizationSchedule(principal, annualRate, termYears, m);
            && 1 <= |schedule| <= NumberOfPayments(termYears)
            && schedule[|schedule| - 1].remainingBalance == 0.0
            && SumPrincipal(schedule) == principal
  {
    var r := MonthlyRate(annualRate);
    var n := NumberOfPayments(termYears);
    var m := CalculateMonthlyPayment(principal, annualRate, termYears);
    var schedule := GenerateAmortizationSchedule(principal, annualRate, termYears, m);
    CalculatedPaymentPresentValue(principal, annualRate, termYears);
    assert schedule == Run(LoopState(1, PresentValue(m, r, n), m), r, n);
    RunFromPresentValueCloses(1, n, m, r, n);
    assert SumPrincipal(schedule) == principal by {
      ScheduleConservesPrincipal(principal, annualRate, termYears, m);
      assert schedule[..|schedule|] == schedule;
      assert SumPrincipal(schedule[..|schedule|]) + BalanceBefore(principal, schedule, |schedule|) == principal;
    }
  }

  /** The annuity schedule runs the full term. Fed the calculated payment m,
      the loop emits one record for each of the n months, every one paying
      exactly m, split exactly into principal and interest, and the last
      closing the loan at zero. The side conditions rule out the two
      shortcuts the loop could otherwise take: a final balance below one
      cent (a payment under a cent) and a balance that no longer covers the
      payment two months early (a monthly rate above about 61.8 %). */
  lemma AnnuityScheduleRunsFullTerm(principal: real, annualRate: real, termYears: real)
    requires principal > 0.0 && annualRate >= 0.0 && termYears > 0.0 && WholeMonths(termYears)
    requires var r := MonthlyRate(annualRate);
             && CalculateMonthlyPayment(principal, annualRate, termYears) >= ResidueThreshold * (1.0 + r)
             && (1.0 + r) * (1.0 + r) <= 2.0 + r
    ensures var m := CalculateMonthlyPayment(principal, annualRate, termYears);
            var n := NumberOfPayments(termYears);
            var schedule := GenerateAmortizationSchedule(principal, annualRate, termYears, m);
            && |schedule| == n
            && schedule[n - 1].remainingBalance == 0.0
            && forall k :: 0 <= k < n ==>
                 schedule[k].payment == m && schedule[k].payment == schedule[k].principal + schedule[k].interest
  {
    var m := CalculateMonthlyPayment(principal, annualRate, termYears);
    var n := NumberOfPayments(termYears);
    AnnuityScheduleRetires(principal, annualRate, termYears);
    assert PresentValue(m, MonthlyRate(annualRate), 0) == 0.0;
  }

  /** Totals of the full-term annuity schedule: the payments add up to n·m
      and the interest to n·m minus the principal. */
  lemma AnnuityScheduleTotals(principal: real, annualRate: real, termYears: real)
    requires principal > 0.0 && annualRate >= 0.0 && termYears > 0.0 && WholeMonths(termYears)
    requires var r := MonthlyRate(annualRate);
             && CalculateMonthlyPayment(principal, annualRate, termYears) >= ResidueThreshold * (1.0 + r)
             && (1.0 + r) * (1.0 + r) <= 2.0 + r
    ensures var m := CalculateMonthlyPayment(principal, annualRate, termYears);
            var n := NumberOfPayments(termYears);
            var schedule := GenerateAmortizationSchedule(principal, annualRate, termYears, m);
            && SumPayment(schedule) == n as real * m
            && SumInterest(schedule) == n as real * m - principal
  {
    var m := CalculateMonthlyPayment(principal, annualRate, termYears);
    var n := NumberOfPayments(termYears);
    var schedule := GenerateAmortizationSchedule(principal, annualRate, termYears, m);
    assert SumPayment(schedule) == |schedule| as real * m
           && SumInterest(schedule) == |schedule| as real * m - principal by {
      AnnuityScheduleRunsFullTerm(principal, annualRate, termYears);
      ScheduleConservesPrincipal(principal, annualRate, termYears, m);
      LevelScheduleTotals(schedule, m, principal);
    }
    assert |schedule| == n by {
      AnnuityScheduleRunsFullTerm(principal, annualRate, termYears);
    }
  }

  /** A schedule of level payments, each split exactly, that conserves
      the principal and closes at zero: its payments add up to count ×
      payment, and its interest to that minus the principal. */
  lemma LevelScheduleTotals(rows: seq<AmortizationData>, payment: real, principal: real)
    requires |rows| >= 1 && rows[|rows| - 1].remainingBalance == 0.0
    requires forall k :: 0 <= k < |rows| ==>
               rows[k].payment == payment && rows[k].payment == rows[k].principal + rows[k].interest
    requires PrincipalConserved(principal, rows)
    ensures SumPayment(rows) == |rows| as real * payment
    ensures SumInterest(rows) == |rows| as real * payment - principal
  {
    SumPaymentLevel(rows, payment);
    SumPaymentSplits(rows);
    assert rows[..|rows|] == rows;
    assert SumPrincipal(rows[..|rows|]) + BalanceBefore(principal, rows, |rows|) == principal;
  }

}

=== FILE: csv_exporter.dfy ===
/** The text half of the CSV export: a header line, then one line per
    schedule record with the month as an integer and every amount with
    exactly two decimals, all joined by newlines. Handing the text to the
    browser as a download is outside the model. */
module CsvExporter {

  import opened Wrappers
  import opened Types
  import opened Text
  import opened Fixed

  /** One record as a line: month, payment, principal, interest, remaining
      balance, separated by commas. */
  function FormatRow(row: AmortizationData): string
  {
    Join(RowFields(row), ',')
  }

  /** The five fields of a record's line, in column order. */
  function RowFields(row: AmortizationData): seq<string>
  {
    [ NatToString(row.month), ToFixed2(row.payment), ToFixed2(row.principal),
      ToFixed2(row.interest), ToFixed2(row.remainingBalance) ]
  }

  function FormatRows(data: seq<AmortizationData>): (lines: seq<string>)
    ensures |lines| == |data|
  {
    if |data| == 0 then [] else [FormatRow(data[0])] + FormatRows(data[1..])
  }

  /** The header line followed by one line per record. */
  function CsvLines(headers: seq<string>, data: seq<AmortizationData>): seq<string>
  {
    [Join(headers, ',')] + FormatRows(data)
  }

  /** The CSV text for `data`, or `None` when there is nothing to export:
      `None` stands for an absent (null) array, and an empty one is
      rejected the same way. */
  function ExportToCSV(headers: seq<string>, data: Option<seq<AmortizationData>>): (csv: Option<string>)
    ensures csv.None? <==> data.None? || |data.value| == 0
  {
    if data.None? || |data.value| == 0 then None
    else Some(Join(CsvLines(headers, data.value), '\n'))
  }

  /** The loop of `exportToCSV`: the header line, then each record's line
      pushed onto `csvRows` in order, joined with newlines at the end. It
      computes `ExportToCSV`. */
  method BuildCsv(headers: seq<string>, data: Option<seq<AmortizationData>>) returns (csv: Option<string>)
    ensures csv == ExportToCSV(headers, data)
  {
    if data.None? || |data.value| == 0 {
      return None;
    }
    var rows := data.value;
    var csvRows := [Join(headers, ',')];
    var i := 0;
    while i < |rows|
      invariant 0 <= i <= |rows|
      invariant csvRows + FormatRows(rows[i..]) == CsvLines(headers, rows)
    {
      var line := FormatRow(rows[i]);
      FormatRowsCons(rows[i..]);
      assert rows[i..][1..] == rows[i + 1..];
      assert csvRows + FormatRows(rows[i..]) == (csvRows + [line]) + FormatRows(rows[i + 1..]);
      csvRows := csvRows + [line];
      i := i + 1;
    }
    assert csvRows + FormatRows(rows[i..]) == csvRows;
    return Some(Join(csvRows, '\n'));
  }

  lemma FormatRowsCons(data: seq<AmortizationData>)
    requires |data| >= 1
    ensures FormatRows(data) == [FormatRow(data[0])] + FormatRows(data[1..])
  {
  }

  // ---------------------------------------------------------------------
  // Reading the text back
  // ---------------------------------------------------------------------

  /** The record a line denotes, if it has five fields of the right shapes. */
  function ParseRow(line: string): Option<AmortizationData>
  {
    var fields := Split(line, ',');
    if |fields| != 5 then None
    else
      match (ParseNat(fields[0]), ParseFixed2(fields[1]), ParseFixed2(fields[2]),
             ParseFixed2(fields[3]), ParseFixed2(fields[4]))
      case (Some(month), Some(payment), Some(principal), Some(interest), Some(balance)) =>
        Some(AmortizationData(month, payment, principal, interest, balance))
      case _ => None
  }

  function ParseRows(lines: seq<string>): Option<seq<AmortizationData>>
  {
    if |lines| == 0 then Some([])
    else
      match (ParseRow(lines[0]), ParseRows(lines[1..]))
      case (Some(row), Some(rest)) => Some([row] + rest)
      case _ => None
  }

  /** The header line and the records of a CSV text. */
  function ParseCsv(text: string): Option<(string, seq<AmortizationData>)>
  {
    var lines := Split(text, '\n');
    match ParseRows(lines[1..])
    case Some(rows) => Some((lines[0], rows))
    case None => None
  }

  /** A record with every amount rounded to the cent, as its line shows it. */
  function RoundRow(row: AmortizationData): AmortizationData
  {
    AmortizationData(row.month, Rounded(row.payment), Rounded(row.principal),
                     Rounded(row.interest), Rounded(row.remainingBalance))
  }

  function RoundRows(data: seq<AmortizationData>): (rounded: seq<AmortizationData>)
    ensures |rounded| == |data|
  {
    if |data| == 0 then [] else [RoundRow(data[0])] + RoundRows(data[1..])
  }

  // ---------------------------------------------------------------------
  // Properties
  // ---------------------------------------------------------------------

  /** Characters that a rendered number may contain. */
  predicate NumericChar(c: char)
  {
    IsDigit(c) || c == '-' || c == '.'
  }

  lemma {:induction false} DigitsAreNumeric(s: string)
    requires AllDigits(s)
    ensures forall i :: 0 <= i < |s| ==> NumericChar(s[i])
  {
  }

  /** A two-decimal rendering holds only digits, a sign and a point. */
  lemma ToFixed2Numeric(x: real)
    ensures forall i :: 0 <= i < |ToFixed2(x)| ==> NumericChar(ToFixed2(x)[i])
  {
    var c := Cents(x);
    var w := NatToString(c / 100);
    var sign := if x < 0.0 then "-" else "";
    var s := sign + (w + "." + [DigitChar(c % 100 / 10), DigitChar(c % 10)]);
    assert ToFixed2(x) == s;
    DigitsAreNumeric(w);
    forall i | 0 <= i < |s|
      ensures NumericChar(s[i])
    {
      if i >= |sign| + |w| {
        assert s[i] in "." + [DigitChar(c % 100 / 10), DigitChar(c % 10)];
      } else if i >= |sign| {
        assert s[i] == w[i - |sign|];
      }
    }
  }

  lemma NumericFree(s: string, c: char)
    requires !NumericChar(c)
    requires forall i :: 0 <= i < |s| ==> NumericChar(s[i])
    ensures c !in s
  {
  }

  /** No field of a line contains a comma or a newline. */
  lemma RowFieldsFree(row: AmortizationData, c: char)
    requires !NumericChar(c)
    ensures SeparatorFree(RowFields(row), c)
  {
    var fields := RowFields(row);
    DigitsAreNumeric(fields[0]);
    NumericFree(fields[0], c);
    forall i | 1 <= i < 5
      ensures c !in fields[i]
    {
      var x := [row.payment, row.principal, row.interest, row.remainingBalance][i - 1];
      assert fields[i] == ToFixed2(x);
      ToFixed2Numeric(x);
      NumericFree(fields[i], c);
    }
  }

  /** A record's line splits at its commas into exactly its five fields, in
      column order: the month in decimal and every amount in two-decimal
      form. */
  lemma RowLayout(row: AmortizationData)
    ensures Split(FormatRow(row), ',') == RowFields(row)
    ensures TwoDecimalForm(ToFixed2(row.payment)) && TwoDecimalForm(ToFixed2(row.principal))
    ensures TwoDecimalForm(ToFixed2(row.interest)) && TwoDecimalForm(ToFixed2(row.remainingBalance))
    ensures '\n' !in FormatRow(row)
  {
    RowSplits(row);
    RowAmountsTwoDecimal(row);
    RowHasNoNewline(row);
  }

  lemma RowSplits(row: AmortizationData)
    ensures Split(FormatRow(row), ',') == RowFields(row)
  {
    RowFieldsFree(row, ',');
    SplitJoin(RowFields(row), ',');
  }

  lemma RowAmountsTwoDecimal(row: AmortizationData)
    ensures TwoDecimalForm(ToFixed2(row.payment)) && TwoDecimalForm(ToFixed2(row.principal))
    ensures TwoDecimalForm(ToFixed2(row.interest)) && TwoDecimalForm(ToFixed2(row.remainingBalance))
  {
    ToFixed2RoundTrip(row.payment);
    ToFixed2RoundTrip(row.principal);
    ToFixed2RoundTrip(row.interest);
    ToFixed2RoundTrip(row.remainingBalance);
  }

  lemma RowHasNoNewline(row: AmortizationData)
    ensures '\n' !in FormatRow(row)
  {
    RowFieldsFree(row, '\n');
    JoinSeparatorFree(RowFields(row), ',', '\n');
  }

  /** Reading a line back gives the record with its amounts rounded to the
      cent: the month exactly, every amount within half a cent. */
  lemma RowRoundTrip(row: AmortizationData)
    ensures ParseRow(FormatRow(row)) == Some(RoundRow(row))
  {
    RowLayout(row);
    NatToStringRoundTrip(row.month);
    ToFixed2RoundTrip(row.payment);
    ToFixed2RoundTrip(row.principal);
    ToFixed2RoundTrip(row.interest);
    ToFixed2RoundTrip(row.remainingBalance);
  }

  /** Line i of the record lines is record i's line. */
  lemma {:induction false} FormatRowsLayout(data: seq<AmortizationData>)
    ensures SeparatorFree(FormatRows(data), '\n')
    ensures forall i :: 0 <= i < |data| ==> FormatRows(data)[i] == FormatRow(data[i])
  {
    FormatRowsAt(data);
    forall i | 0 <= i < |data|
      ensures '\n' !in FormatRows(data)[i]
    {
      RowHasNoNewline(data[i]);
    }
  }

  lemma {:induction false} FormatRowsAt(data: seq<AmortizationData>)
    ensures forall i :: 0 <= i < |data| ==> FormatRows(data)[i] == FormatRow(data[i])
  {
    if |data| > 0 {
      FormatRowsAt(data[1..]);
      var lines := FormatRows(data);
      forall i | 1 <= i < |data|
        ensures lines[i] == FormatRow(data[i])
      {
        assert lines[i] == FormatRows(data[1..])[i - 1];
      }
    }
  }

  /** Reading the record lines back gives the records rounded to the cent. */
  lemma {:induction false} FormatRowsRoundTrip(data: seq<AmortizationData>)
    ensures ParseRows(FormatRows(data)) == Some(RoundRows(data))
  {
    if |data| > 0 {
      FormatRowsRoundTrip(data[1..]);
      RowRoundTrip(data[0]);
      assert FormatRows(data)[1..] == FormatRows(data[1..]);
    }
  }

  /** The last character of a join is the last character of its last part. */
  lemma {:induction false} JoinEndsWithLastPart(parts: seq<string>, sep: char)
    requires |parts| >= 1 && |parts[|parts| - 1]| >= 1
    ensures var joined := Join(parts, sep);
            var lastPart := parts[|parts| - 1];
            |joined| >= 1 && joined[|joined| - 1] == lastPart[|lastPart| - 1]
    decreases |parts|
  {
    if |parts| > 1 {
      JoinEndsWithLastPart(parts[1..], sep);
      assert parts[1..][|parts| - 2] == parts[|parts| - 1];
    }
  }

  /** A record's line is never empty: it starts with the month's digits. */
  lemma FormatRowNonEmpty(row: AmortizationData)
    ensures |FormatRow(row)| >= 1
  {
    var fields := RowFields(row);
    assert FormatRow(row) == fields[0] + [','] + Join(fields[1..], ',');
  }

  lemma CsvLinesFree(headers: seq<string>, data: seq<AmortizationData>)
    requires SeparatorFree(headers, '\n')
    ensures SeparatorFree(CsvLines(headers, data), '\n')
  {
    var all := CsvLines(headers, data);
    FormatRowsLayout(data);
    JoinSeparatorFree(headers, ',', '\n');
    forall i | 0 <= i < |all|
      ensures '\n' !in all[i]
    {
      if i > 0 {
        assert all[i] == FormatRows(data)[i - 1];
      }
    }
  }

  /** The exported text splits at its newlines into exactly its lines. */
  lemma ExportSplitsIntoLines(headers: seq<string>, data: seq<AmortizationData>)
    requires |data| >= 1 && SeparatorFree(headers, '\n')
    ensures Split(ExportToCSV(headers, Some(data)).value, '\n') == CsvLines(headers, data)
  {
    CsvLinesFree(headers, data);
    SplitJoin(CsvLines(headers, data), '\n');
  }

  /** The exported text ends with the last character of the last record's
      line, so not with a newline. */
  lemma ExportEndsWithoutNewline(headers: seq<string>, data: seq<AmortizationData>)
    requires |data| >= 1
    ensures var csv := ExportToCSV(headers, Some(data)).value;
            var lastLine := FormatRow(data[|data| - 1]);
            && |csv| >= 1 && |lastLine| >= 1
            && csv[|csv| - 1] == lastLine[|lastLine| - 1]
            && csv[|csv| - 1] != '\n'
  {
    var all := CsvLines(headers, data);
    var lastRow := data[|data| - 1];
    FormatRowsLayout(data);
    assert all[|all| - 1] == FormatRow(lastRow);
    FormatRowNonEmpty(lastRow);
    RowHasNoNewline(lastRow);
    JoinEndsWithLastPart(all, '\n');
  }

  /** The exported text: the header line first, then one line per record
      in input order, |data| + 1 lines in all, with no newline at the end.
      Header names must not themselves contain a newline. */
  lemma ExportLayout(headers: seq<string>, data: seq<AmortizationData>)
    requires |data| >= 1 && SeparatorFree(headers, '\n')
    ensures var csv := ExportToCSV(headers, Some(data)).value;
            var lines := Split(csv, '\n');
            && |lines| == |data| + 1
            && lines[0] == Join(headers, ',')
            && (forall i :: 0 <= i < |data| ==> lines[i + 1] == FormatRow(data[i]))
            && csv[|csv| - 1] != '\n'
  {
    ExportSplitsIntoLines(headers, data);
    ExportEndsWithoutNewline(headers, data);
    FormatRowsLayout(data);
  }

  /** Reading the export back gives the header line and every record, in
      order, with its amounts rounded to the cent. */
  lemma ExportRoundTrip(headers: seq<string>, data: seq<AmortizationData>)
    requires |data| >= 1 && SeparatorFree(headers, '\n')
    ensures ParseCsv(ExportToCSV(headers, Some(data)).value) == Some((Join(headers, ','), RoundRows(data)))
  {
    ExportSplitsIntoLines(headers, data);
    FormatRowsRoundTrip(data);
    var lines := Split(ExportToCSV(headers, Some(data)).value, '\n');
    assert lines[1..] == FormatRows(data);
  }

}

=== FILE: financial_math.dfy ===
/** The computational engine: the fixed monthly payment of an amortizing loan
    and the month-by-month schedule that pays it down. Amounts and the term
    in years are exact reals; the loop runs once for every whole month in
    the term. */
module FinancialMath {

  import opened Types

  /** A remaining balance below one cent is treated as rounding dust. */
  const ResidueThreshold: real := 0.01

  /** The monthly rate as a fraction, from an annual rate in percent. */
  function MonthlyRate(annualRate: real): real
  {
    annualRate / 100.0 / 12.0
  }

  /** The number of iterations of `for (let i = 1; i <= termYears * 12; i++)`:
      the whole months in the term, and none for a term under one month. */
  function NumberOfPayments(termYears: real): (n: nat)
    ensures n as real <= termYears * 12.0 < n as real + 1.0 || (n == 0 && termYears * 12.0 < 1.0)
  {
    var months := termYears * 12.0;
    if months < 1.0 then 0 else months.Floor
  }

  /** The term is a whole number of months, so `termYears * 12` is the
      integer exponent of the annuity formula. */
  predicate WholeMonths(termYears: real)
  {
    NumberOfPayments(termYears) as real == termYears * 12.0
  }

  /** `Math.pow` restricted to whole exponents. */
  function Pow(x: real, n: nat): real
  {
    if n == 0 then 1.0 else x * Pow(x, n - 1)
  }

  lemma {:induction false} PowAboveOne(x: real, n: nat)
    requires x > 1.0 && n >= 1
    ensures Pow(x, n) >= x
    decreases n
  {
    if n > 1 {
      PowAboveOne(x, n - 1);
      assert x * Pow(x, n - 1) >= x * x;
    }
  }

  lemma ProductNonNegative(a: real, b: real)
    requires a >= 0.0 && b >= 0.0
    ensures a * b >= 0.0
  {
  }

  lemma ProductPositive(a: real, b: real)
    requires a > 0.0 && b > 0.0
    ensures a * b > 0.0
  {
  }

  lemma CancelFactor(a: real, b: real, c: real)
    requires c != 0.0 && a * c == b * c
    ensures a == b
  {
    assert (a - b) * c == 0.0;
  }

  /** For a growth factor q > 1, the annuity factor r·q/(q − 1) exceeds the rate r. */
  lemma AnnuityFactorExceedsRate(principal: real, rate: real, growth: real)
    requires rate > 0.0 && growth > 1.0
    ensures principal > 0.0 ==> principal * (rate * growth) / (growth - 1.0) > principal * rate
  {
    var pr := principal * rate;
    assert principal * (rate * growth) == pr * growth;
    var payment := principal * (rate * growth) / (growth - 1.0);
    assert payment * (growth - 1.0) == pr * growth;
    if principal > 0.0 {
      assert pr > 0.0;
      assert pr * growth - pr * (growth - 1.0) == pr;
      assert (payment - pr) * (growth - 1.0) == pr;
      if payment <= pr {
        ProductNonNegative(pr - payment, growth - 1.0);
      }
    }
  }

  /** The fixed monthly payment. A zero rate pays the principal off in equal
      parts over termYears·12 months; otherwise the annuity formula
      P·r·(1+r)^n / ((1+r)^n − 1) is used, with n = termYears·12 a whole
      number. The annuity payment exceeds the first month's interest P·r,
      so the first period always reduces the principal. */
  function CalculateMonthlyPayment(principal: real, annualRate: real, termYears: real): (payment: real)
    requires annualRate >= 0.0 && termYears > 0.0
    requires annualRate == 0.0 || WholeMonths(termYears)
    ensures annualRate == 0.0 ==> payment == principal / (termYears * 12.0)
    ensures annualRate > 0.0 && principal > 0.0 ==> payment > principal * MonthlyRate(annualRate)
    ensures principal > 0.0 ==> payment > 0.0
  {
    var monthlyRate := MonthlyRate(annualRate);
    var numberOfPayments := termYears * 12.0;
    if monthlyRate == 0.0 then
      principal / numberOfPayments
    else
      var n := NumberOfPayments(termYears);
      var growth := Pow(1.0 + monthlyRate, n);
      PowAboveOne(1.0 + monthlyRate, n);
      AnnuityFactorExceedsRate(principal, monthlyRate, growth);
      principal * (monthlyRate * growth) / (growth - 1.0)
  }

  /** What one iteration of the schedule loop carries to the next: the month
      index, the running balance and the (reassignable) payment. */
  datatype LoopState = LoopState(month: nat, balance: real, payment: real)

  /** The record one iteration emits and the state it leaves behind. */
  datatype Period = Period(row: AmortizationData, next: LoopState)

  /** Short-payment correction: when the balance is below the payment, the
      period repays exactly the balance, and the payment becomes the balance
      plus this period's interest. Yields (principal portion, payment). */
  function ShortPaymentCorrection(balance: real, payment: real, interest: real): (real, real)
  {
    if balance < payment then (balance, balance + interest)
    else (payment - interest, payment)
  }

  /** Residue snap: a remaining balance below one cent (negative ones
      included) is folded into the principal portion and set to zero.
      Yields (principal portion, remaining balance). */
  function ResidueSnap(principalPaid: real, remaining: real): (real, real)
  {
    if remaining < ResidueThreshold then (principalPaid + remaining, 0.0)
    else (principalPaid, remaining)
  }

  /** A month's interest on a balance at the monthly rate. */
  function MonthlyInterest(balance: real, rate: real): real
  {
    balance * rate
  }

  /** One iteration of the schedule loop: interest on the balance, the
      tentative principal portion, the short-payment correction, the
      subtraction, the residue snap, and the record. The state it leaves
      carries the record's balance and payment. */
  function Step(s: LoopState, rate: real): (p: Period)
    ensures p.row.month == s.month && p.next.month == s.month + 1
    ensures p.next.balance == p.row.remainingBalance && p.next.payment == p.row.payment
  {
    var interest := MonthlyInterest(s.balance, rate);
    var corrected := ShortPaymentCorrection(s.balance, s.payment, interest);
    var snapped := ResidueSnap(corrected.0, s.balance - corrected.0);
    Period(
      AmortizationData(s.month, corrected.1, snapped.0, interest, snapped.1),
      LoopState(s.month + 1, snapped.1, corrected.1))
  }

  /** What one iteration guarantees. The interest is the balance times the
      rate; the principal portion and the new balance always add up to the
      old balance; the new balance is zero or at least one cent. The
      short-payment branch makes the record's payment exactly principal plus
      interest and closes the loan; otherwise the payment is unchanged and
      principal plus interest exceeds it only by a folded residue below one
      cent. A payment that covers the interest never lets the balance grow. */
  lemma StepInvariants(s: LoopState, rate: real)
    ensures var p := Step(s, rate);
            && p.row.interest == MonthlyInterest(s.balance, rate)
            && p.row.principal + p.row.remainingBalance == s.balance
            && (p.row.remainingBalance == 0.0 || p.row.remainingBalance >= ResidueThreshold)
            && (s.balance < s.payment ==>
                  p.row.payment == p.row.principal + p.row.interest && p.row.remainingBalance == 0.0)
            && (s.balance >= s.payment ==>
                  && p.row.payment == s.payment
                  && p.row.principal + p.row.interest - p.row.payment < ResidueThreshold
                  && (p.row.remainingBalance != 0.0 ==> p.row.principal + p.row.interest == p.row.payment))
            && (s.balance > 0.0 && rate >= 0.0 ==> p.row.principal + p.row.interest >= p.row.payment)
            && (s.balance > 0.0 && p.row.interest <= s.payment ==> p.row.remainingBalance <= s.balance)
  {
  }

  /** The schedule loop from state `s` up to month `last`: it stops at the
      natural bound or as soon as the balance is no longer positive. */
  function Run(s: LoopState, rate: real, last: nat): (rows: seq<AmortizationData>)
    ensures |rows| > 0 ==> s.month + |rows| <= last + 1
    ensures forall k :: 0 <= k < |rows| ==> rows[k].month == s.month + k
    decreases last + 1 - s.month
  {
    if s.month > last || s.balance <= 0.0 then []
    else
      var p := Step(s, rate);
      [p.row] + Run(p.next, rate, last)
  }

  /** One unfolding of the loop while it is still running. */
  lemma RunUnfold(s: LoopState, rate: real, last: nat)
    requires s.month <= last && s.balance > 0.0
    ensures Run(s, rate, last) == [Step(s, rate).row] + Run(Step(s, rate).next, rate, last)
  {
  }

  /** The amortization schedule for a loan paid with `monthlyPayment`: at
      most `termYears`·12 records numbered 1, 2, … in order. It is empty
      exactly when the principal is not positive or the term is shorter
      than one month, whatever the payment. */
  function GenerateAmortizationSchedule(principal: real, annualRate: real, termYears: real, monthlyPayment: real)
    : (schedule: seq<AmortizationData>)
    ensures |schedule| as real <= termYears * 12.0 || |schedule| == 0
    ensures |schedule| <= NumberOfPayments(termYears)
    ensures forall k :: 0 <= k < |schedule| ==> schedule[k].month == k + 1
    ensures |schedule| >= 1 <==> principal > 0.0 && termYears * 12.0 >= 1.0
  {
    Run(LoopState(1, principal, monthlyPayment), MonthlyRate(annualRate), NumberOfPayments(termYears))
  }

  /** The body of the loop of `generateAmortizationSchedule`: interest,
      principal portion, short-payment correction, subtraction, residue
      snap, record, with `monthlyPayment` reassigned in place. It performs
      exactly one `Step`. */
  method Iterate(i: nat, balance: real, payment: real, monthlyRate: real)
    returns (row: AmortizationData, remainingBalance: real, newPayment: real)
    ensures Step(LoopState(i, balance, payment), monthlyRate)
            == Period(row, LoopState(i + 1, remainingBalance, newPayment))
  {
    remainingBalance := balance;
    newPayment := payment;
    var interestPaid := MonthlyInterest(remainingBalance, monthlyRate);
    var principalPaid := newPayment - interestPaid;
    if remainingBalance < newPayment {
      principalPaid := remainingBalance;
      newPayment := remainingBalance + interestPaid;
    }
    remainingBalance := remainingBalance - principalPaid;
    if remainingBalance < ResidueThreshold {
      principalPaid := principalPaid + remainingBalance;
      remainingBalance := 0.0;
    }
    row := AmortizationData(i, newPayment, principalPaid, interestPaid, remainingBalance);
  }

  /** The loop of `generateAmortizationSchedule`, with its real bound
      `termYears * 12`, its early `break` and `monthlyPayment` reassigned
      in place; it computes exactly the functional schedule. */
  method GenerateSchedule(principal: real, annualRate: real, termYears: real, monthlyPayment: real)
    returns (schedule: seq<AmortizationData>)
    ensures schedule == GenerateAmortizationSchedule(principal, annualRate, termYears, monthlyPayment)
  {
    schedule := [];
    var remainingBalance := principal;
    var payment := monthlyPayment;
    var monthlyRate := MonthlyRate(annualRate);
    var numberOfPayments := termYears * 12.0;
    ghost var last := NumberOfPayments(termYears);
    var i: nat := 1;
    while i as real <= numberOfPayments
      invariant 1 <= i <= last + 1
      invariant schedule + Run(LoopState(i, remainingBalance, payment), monthlyRate, last)
                == GenerateAmortizationSchedule(principal, annualRate, termYears, monthlyPayment)
    {
      if remainingBalance <= 0.0 {
        break;
      }
      ghost var before := LoopState(i, remainingBalance, payment);
      var row;
      row, remainingBalance, payment := Iterate(i, remainingBalance, payment, monthlyRate);
      RunUnfold(before, monthlyRate, last);
      assert schedule + Run(before, monthlyRate, last)
             == (schedule + [row]) + Run(LoopState(i + 1, remainingBalance, payment), monthlyRate, last);
      schedule := schedule + [row];
      i := i + 1;
    }
    assert Run(LoopState(i, remainingBalance, payment), monthlyRate, last) == [];
    assert schedule + [] == schedule;
  }

}

=== FILE: fixed.dfy ===
/** `Number.prototype.toFixed(2)` over exact reals, and a reader for the
    strings it produces. The rendering follows the ECMAScript rule: a `-`
    sign for negative numbers, then the magnitude scaled to hundredths and
    rounded to the nearest integer (ties go to the larger one), written as a
    whole part, a point and exactly two digits. */
module Fixed {

  import opened Wrappers
  import opened Text

  /** The magnitude of `x` in hundredths, rounded half up. */
  function Cents(x: real): nat
  {
    var magnitude := if x < 0.0 then -x else x;
    var c := (magnitude * 100.0 + 0.5).Floor;
    assert c >= 0;
    c
  }

  /** The number a two-decimal rendering of `x` denotes. */
  function Rounded(x: real): real
  {
    var magnitude := Cents(x) as real / 100.0;
    if x < 0.0 then -magnitude else magnitude
  }

  /** `x.toFixed(2)` for numbers below 10^21 in magnitude. */
  function ToFixed2(x: real): string
  {
    var c := Cents(x);
    (if x < 0.0 then "-" else "")
      + (NatToString(c / 100) + "." + [DigitChar(c % 100 / 10), DigitChar(c % 10)])
  }

  /** An optional minus sign, one or more digits, a point, exactly two digits. */
  predicate TwoDecimalForm(s: string)
  {
    var u := if |s| >= 1 && s[0] == '-' then s[1..] else s;
    && |u| >= 4
    && AllDigits(u[..|u| - 3])
    && u[|u| - 3] == '.'
    && IsDigit(u[|u| - 2]) && IsDigit(u[|u| - 1])
  }

  function ParseUnsignedFixed2(u: string): Option<real>
  {
    if |u| >= 4 && u[|u| - 3] == '.' && IsDigit(u[|u| - 2]) && IsDigit(u[|u| - 1]) then
      match ParseNat(u[..|u| - 3])
      case Some(whole) =>
        Some((100 * whole + 10 * DigitValue(u[|u| - 2]) + DigitValue(u[|u| - 1])) as real / 100.0)
      case None => None
    else None
  }

  /** Reads a two-decimal rendering back to the number it denotes; anything
      not of that form is rejected. */
  function ParseFixed2(s: string): (r: Option<real>)
    ensures r.Some? <==> TwoDecimalForm(s)
  {
    if |s| >= 1 && s[0] == '-' then
      match ParseUnsignedFixed2(s[1..])
      case Some(v) => Some(-v)
      case None => None
    else ParseUnsignedFixed2(s)
  }

  lemma CentsDigits(c: nat)
    ensures 100 * (c / 100) + 10 * (c % 100 / 10) + c % 10 == c
  {
  }

  lemma UnsignedRoundTrip(c: nat)
    ensures ParseUnsignedFixed2(NatToString(c / 100) + "." + [DigitChar(c % 100 / 10), DigitChar(c % 10)])
            == Some(c as real / 100.0)
  {
    var w := NatToString(c / 100);
    var u := w + "." + [DigitChar(c % 100 / 10), DigitChar(c % 10)];
    assert u[..|u| - 3] == w;
    assert u[|u| - 2] == DigitChar(c % 100 / 10) && u[|u| - 1] == DigitChar(c % 10);
    NatToStringRoundTrip(c / 100);
    DigitRoundTrip(c % 100 / 10);
    DigitRoundTrip(c % 10);
    CentsDigits(c);
  }

  /** Rounding to hundredths moves a number by at most half a cent. */
  lemma RoundedWithinHalfCent(x: real)
    ensures -0.005 <= Rounded(x) - x <= 0.005
  {
    var magnitude := if x < 0.0 then -x else x;
    var c := Cents(x);
    assert c as real <= magnitude * 100.0 + 0.5 < c as real + 1.0;
    assert -0.005 <= c as real / 100.0 - magnitude <= 0.005;
  }

  /** A sign in front of an unsigned rendering negates the value read. */
  lemma SignedParse(u: string, negative: bool, v: real)
    requires |u| >= 1 && IsDigit(u[0]) && ParseUnsignedFixed2(u) == Some(v)
    ensures ParseFixed2((if negative then "-" else "") + u) == Some(if negative then -v else v)
  {
    var s := (if negative then "-" else "") + u;
    if negative {
      assert s[0] == '-' && s[1..] == u;
    } else {
      assert s == u && s[0] != '-';
    }
  }

  /** Every rendering has the two-decimal form, reads back to `Rounded(x)`,
      and that value is within half a cent of `x`. */
  lemma ToFixed2RoundTrip(x: real)
    ensures TwoDecimalForm(ToFixed2(x))
    ensures ParseFixed2(ToFixed2(x)) == Some(Rounded(x))
    ensures -0.005 <= Rounded(x) - x <= 0.005
  {
    var c := Cents(x);
    var u := NatToString(c / 100) + "." + [DigitChar(c % 100 / 10), DigitChar(c % 10)];
    var sign := if x < 0.0 then "-" else "";
    assert ToFixed2(x) == sign + u;
    UnsignedRoundTrip(c);
    RoundedWithinHalfCent(x);
    SignedParse(u, x < 0.0, c as real / 100.0);
  }

}

=== FILE: schedule_facts.dfy ===
/** What the schedule loop guarantees about the records it emits, proved
    by induction over the loop (`Run`) and then stated for the schedule
    itself (`GenerateAmortizationSchedule`, which runs the loop from month 1
    with the principal as opening balance). */
module ScheduleFacts {

  import opened Types
  import opened FinancialMath

  /** The balance period `k` starts from: the opening balance for the first
      record, the previous record's remaining balance after that. For
      `k == |rows|` it is the balance the loop ends with. */
  function BalanceBefore(opening: real, rows: seq<AmortizationData>, k: nat): real
    requires k <= |rows|
  {
    if k == 0 then opening else rows[k - 1].remainingBalance
  }

  function SumPrincipal(rows: seq<AmortizationData>): real
  {
    if |rows| == 0 then 0.0 else rows[0].principal + SumPrincipal(rows[1..])
  }

  function SumPayment(rows: seq<AmortizationData>): real
  {
    if |rows| == 0 then 0.0 else rows[0].payment + SumPayment(rows[1..])
  }

  function SumInterest(rows: seq<AmortizationData>): real
  {
    if |rows| == 0 then 0.0 else rows[0].interest + SumInterest(rows[1..])
  }

  /** Level payments add up to their number times the payment. */
  lemma {:induction false} SumPaymentLevel(rows: seq<AmortizationData>, payment: real)
    requires forall k :: 0 <= k < |rows| ==> rows[k].payment == payment
    ensures SumPayment(rows) == |rows| as real * payment
  {
    if |rows| > 0 {
      SumPaymentLevel(rows[1..], payment);
    }
  }

  /** When every payment is exactly principal plus interest, so are the
      totals. */
  lemma {:induction false} SumPaymentSplits(rows: seq<AmortizationData>)
    requires forall k :: 0 <= k < |rows| ==> rows[k].payment == rows[k].principal + rows[k].interest
    ensures SumPayment(rows) == SumPrincipal(rows) + SumInterest(rows)
  {
    if |rows| > 0 {
      SumPaymentSplits(rows[1..]);
    }
  }

  // ---------------------------------------------------------------------
  // Properties of an emitted record list
  // ---------------------------------------------------------------------

  /** Every remaining balance is exactly zero or at least one cent. */
  ghost predicate ResidueFree(rows: seq<AmortizationData>)
  {
    forall k :: 0 <= k < |rows| ==>
      rows[k].remainingBalance == 0.0 || rows[k].remainingBalance >= ResidueThreshold
  }

  /** Only the last record may close the loan: every earlier one leaves at
      least one cent outstanding. */
  ghost predicate ZeroOnlyLast(rows: seq<AmortizationData>)
  {
    forall k :: 0 <= k < |rows| - 1 ==> rows[k].remainingBalance >= ResidueThreshold
  }

  /** Each record's interest is the balance it started from times the rate. */
  ghost predicate InterestOnBalance(opening: real, rows: seq<AmortizationData>, rate: real)
  {
    forall k {:trigger rows[k].interest} :: 0 <= k < |rows| ==>
      rows[k].interest == MonthlyInterest(BalanceBefore(opening, rows, k), rate)
  }

  /** After every prefix, the principal repaid plus the balance still owed
      is the opening balance. */
  ghost predicate PrincipalConserved(opening: real, rows: seq<AmortizationData>)
  {
    forall k :: 0 <= k <= |rows| ==>
      SumPrincipal(rows[..k]) + BalanceBefore(opening, rows, k) == opening
  }

  /** The payment a record shows, relative to the payment the loop was
      started with: the short-payment branch gives principal + interest
      exactly and closes the loan; otherwise the payment is unchanged and
      principal + interest exceeds it by a folded residue below one cent at
      most. A payment covering the interest never lets the balance grow. */
  ghost predicate PaymentRule(row: AmortizationData, before: real, payment: real, rate: real, isLast: bool)
  {
    && (before < payment ==>
          row.payment == row.principal + row.interest && row.remainingBalance == 0.0 && isLast)
    && (before >= payment ==>
          && row.payment == payment
          && row.principal + row.interest - row.payment < ResidueThreshold
          && (row.remainingBalance != 0.0 ==> row.principal + row.interest == row.payment))
    && (rate >= 0.0 ==> row.principal + row.interest >= row.payment)
    && (row.interest <= payment ==> row.remainingBalance <= before)
  }

  ghost predicate PaymentsFollowRule(opening: real, payment: real, rows: seq<AmortizationData>, rate: real)
  {
    forall k {:trigger rows[k].payment} :: 0 <= k < |rows| ==>
      PaymentRule(rows[k], BalanceBefore(opening, rows, k), payment, rate, k == |rows| - 1)
  }

  // ---------------------------------------------------------------------
  // The loop from an arbitrary state
  // ---------------------------------------------------------------------

  lemma {:induction false} RunSnapsResidue(s: LoopState, rate: real, last: nat)
    ensures ResidueFree(Run(s, rate, last))
    decreases last + 1 - s.month
  {
    if s.month <= last && s.balance > 0.0 {
      var p := Step(s, rate);
      var rows := Run(s, rate, last);
      var rest := Run(p.next, rate, last);
      RunSnapsResidue(p.next, rate, last);
      forall k | 1 <= k < |rows|
        ensures rows[k].remainingBalance == 0.0 || rows[k].remainingBalance >= ResidueThreshold
      {
        assert rows[k] == rest[k - 1];
      }
    }
  }

  lemma {:induction false} RunEndsAtZero(s: LoopState, rate: real, last: nat)
    ensures ZeroOnlyLast(Run(s, rate, last))
    decreases last + 1 - s.month
  {
    if s.month <= last && s.balance > 0.0 {
      var p := Step(s, rate);
      var rows := Run(s, rate, last);
      var rest := Run(p.next, rate, last);
      RunEndsAtZero(p.next, rate, last);
      if |rows| > 1 {
        assert p.next.balance > 0.0;
      }
      forall k | 1 <= k < |rows| - 1
        ensures rows[k].remainingBalance >= ResidueThreshold
      {
        assert rows[k] == rest[k - 1];
      }
    }
  }

  /** Record k ≥ 1 of a run is record k − 1 of the run that follows the
      first iteration, and starts from the same balance. */
  lemma RunShift(s: LoopState, rate: real, last: nat, k: nat)
    requires 1 <= k < |Run(s, rate, last)|
    ensures var next := Step(s, rate).next;
            && Run(s, rate, last)[k] == Run(next, rate, last)[k - 1]
            && BalanceBefore(s.balance, Run(s, rate, last), k)
               == BalanceBefore(next.balance, Run(next, rate, last), k - 1)
  {
  }

  lemma {:induction false} RunInterestAt(s: LoopState, rate: real, last: nat, k: nat)
    requires k < |Run(s, rate, last)|
    ensures Run(s, rate, last)[k].interest == MonthlyInterest(BalanceBefore(s.balance, Run(s, rate, last), k), rate)
    decreases k
  {
    if k == 0 {
      StepInvariants(s, rate);
    } else {
      RunShift(s, rate, last, k);
      RunInterestAt(Step(s, rate).next, rate, last, k - 1);
    }
  }

  lemma {:induction false} RunInterest(s: LoopState, rate: real, last: nat)
    ensures InterestOnBalance(s.balance, Run(s, rate, last), rate)
  {
    forall k {:trigger Run(s, rate, last)[k].interest} | 0 <= k < |Run(s, rate, last)|
      ensures Run(s, rate, last)[k].interest == MonthlyInterest(BalanceBefore(s.balance, Run(s, rate, last), k), rate)
    {
      RunInterestAt(s, rate, last, k);
    }
  }

  lemma {:induction false} RunConservesPrincipal(s: LoopState, rate: real, last: nat)
    ensures PrincipalConserved(s.balance, Run(s, rate, last))
    decreases last + 1 - s.month
  {
    var rows := Run(s, rate, last);
    assert SumPrincipal(rows[..0]) == 0.0;
    if s.month <= last && s.balance > 0.0 {
      var p := Step(s, rate);
      var rest := Run(p.next, rate, last);
      RunConservesPrincipal(p.next, rate, last);
      forall k | 1 <= k <= |rows|
        ensures SumPrincipal(rows[..k]) + BalanceBefore(s.balance, rows, k) == s.balance
      {
        assert rows[..k][1..] == rest[..k - 1];
        assert SumPrincipal(rows[..k]) == p.row.principal + SumPrincipal(rest[..k - 1]);
        assert BalanceBefore(s.balance, rows, k) == BalanceBefore(p.next.balance, rest, k - 1);
      }
    }
  }

  lemma {:induction false} RunPayments(s: LoopState, rate: real, last: nat)
    ensures PaymentsFollowRule(s.balance, s.payment, Run(s, rate, last), rate)
    decreases last + 1 - s.month
  {
    if s.month <= last && s.balance > 0.0 {
      var p := Step(s, rate);
      var rows := Run(s, rate, last);
      var rest := Run(p.next, rate, last);
      RunPayments(p.next, rate, last);
      if s.balance < s.payment {
        assert rest == [];
      } else {
        assert p.next.payment == s.payment;
        forall k {:trigger rows[k].payment} | 1 <= k < |rows|
          ensures PaymentRule(rows[k], BalanceBefore(s.balance, rows, k), s.payment, rate, k == |rows| - 1)
        {
          assert rows[k] == rest[k - 1];
          assert BalanceBefore(s.balance, rows, k) == BalanceBefore(p.next.balance, rest, k - 1);
        }
      }
    }
  }

  lemma {:induction false} RunStopsEarlyOnlyWhenPaidOff(s: LoopState, rate: real, last: nat)
    requires s.month <= last + 1
    ensures var rows := Run(s, rate, last);
            BalanceBefore(s.balance, rows, |rows|) > 0.0 ==> s.month + |rows| == last + 1
    decreases last + 1 - s.month
  {
    if s.month <= last && s.balance > 0.0 {
      var p := Step(s, rate);
      var rows := Run(s, rate, last);
      var rest := Run(p.next, rate, last);
      RunStopsEarlyOnlyWhenPaidOff(p.next, rate, last);
      assert BalanceBefore(s.balance, rows, |rows|) == BalanceBefore(p.next.balance, rest, |rest|);
    }
  }

  // ---------------------------------------------------------------------
  // The schedule: the loop from month 1 with the principal as balance
  // ---------------------------------------------------------------------

  /** Every record's remaining balance is exactly zero or at least one cent. */
  lemma ScheduleResidueFree(principal: real, annualRate: real, termYears: real, monthlyPayment: real)
    ensures ResidueFree(GenerateAmortizationSchedule(principal, annualRate, termYears, monthlyPayment))
  {
    RunSnapsResidue(LoopState(1, principal, monthlyPayment), MonthlyRate(annualRate), NumberOfPayments(termYears));
  }

  /** No record follows a zero balance, and the loop stops before the term
      is over only once the balance has reached zero (or was never positive). */
  lemma ScheduleZeroBalanceIsLast(principal: real, annualRate: real, termYears: real, monthlyPayment: real)
    ensures var schedule := GenerateAmortizationSchedule(principal, annualRate, termYears, monthlyPayment);
            && ZeroOnlyLast(schedule)
            && (BalanceBefore(principal, schedule, |schedule|) > 0.0 ==>
                  |schedule| == NumberOfPayments(termYears))
  {
    var s := LoopState(1, principal, monthlyPayment);
    RunEndsAtZero(s, MonthlyRate(annualRate), NumberOfPayments(termYears));
    RunStopsEarlyOnlyWhenPaidOff(s, MonthlyRate(annualRate), NumberOfPayments(termYears));
  }

  /** Each record's interest is the balance before that month times the
      monthly rate annualRate/100/12. */
  lemma ScheduleInterest(principal: real, annualRate: real, termYears: real, monthlyPayment: real)
    ensures InterestOnBalance(principal,
              GenerateAmortizationSchedule(principal, annualRate, termYears, monthlyPayment),
              annualRate / 100.0 / 12.0)
  {
    RunInterest(LoopState(1, principal, monthlyPayment), MonthlyRate(annualRate), NumberOfPayments(termYears));
  }

  /** After any number of records, the principal portions paid so far plus
      the balance still owed add up to the original principal; neither the
      short-payment correction nor the residue snap breaks this. */
  lemma ScheduleConservesPrincipal(principal: real, annualRate: real, termYears: real, monthlyPayment: real)
    ensures PrincipalConserved(principal,
              GenerateAmortizationSchedule(principal, annualRate, termYears, monthlyPayment))
  {
    RunConservesPrincipal(LoopState(1, principal, monthlyPayment), MonthlyRate(annualRate), NumberOfPayments(termYears));
  }

  /** Every record's payment obeys the payment rule relative to the
      `monthlyPayment` the caller passed in. */
  lemma SchedulePayments(principal: real, annualRate: real, termYears: real, monthlyPayment: real)
    ensures PaymentsFollowRule(principal, monthlyPayment,
              GenerateAmortizationSchedule(principal, annualRate, termYears, monthlyPayment),
              MonthlyRate(annualRate))
  {
    RunPayments(LoopState(1, principal, monthlyPayment), MonthlyRate(annualRate), NumberOfPayments(termYears));
  }

  /** With a positive rate the calculated payment exceeds the first month's
      interest, so the first record repays a positive amount of principal. */
  lemma FirstPrincipalPositive(principal: real, annualRate: real, termYears: real)
    requires principal > 0.0 && annualRate > 0.0 && termYears > 0.0 && WholeMonths(termYears)
    ensures var m := CalculateMonthlyPayment(principal, annualRate, termYears);
            var schedule := GenerateAmortizationSchedule(principal, annualRate, termYears, m);
            |schedule| >= 1 && schedule[0].principal > 0.0
  {
    var m := CalculateMonthlyPayment(principal, annualRate, termYears);
    var r := MonthlyRate(annualRate);
    var s := LoopState(1, principal, m);
    RunUnfold(s, r, NumberOfPayments(termYears));
    assert m > MonthlyInterest(principal, r);
  }

}

=== FILE: text.dfy ===
/** Strings as sequences of characters: `Array.prototype.join` with a
    one-character separator, its inverse `Split`, and decimal rendering of
    natural numbers (`String(n)` for a non-negative integer). */
module Text {

  import opened Wrappers

  /** `parts.join(sep)`: the parts with one separator between neighbours. */
  function Join(parts: seq<string>, sep: char): string
  {
    if |parts| == 0 then ""
    else if |parts| == 1 then parts[0]
    else parts[0] + [sep] + Join(parts[1..], sep)
  }

  /** Cuts `s` at every occurrence of `sep`; always yields at least one piece. */
  function Split(s: string, sep: char): (pieces: seq<string>)
    ensures |pieces| >= 1
  {
    if |s| == 0 then [""]
    else
      var rest := Split(s[1..], sep);
      if s[0] == sep then [""] + rest
      else [[s[0]] + rest[0]] + rest[1..]
  }

  /** No piece contains the separator, so joining loses no boundary. */
  ghost predicate SeparatorFree(parts: seq<string>, sep: char)
  {
    forall i :: 0 <= i < |parts| ==> sep !in parts[i]
  }

  lemma {:induction false} SplitWithoutSeparator(s: string, sep: char)
    requires sep !in s
    ensures Split(s, sep) == [s]
    decreases |s|
  {
    if |s| > 0 {
      SplitWithoutSeparator(s[1..], sep);
      assert [s[0]] + s[1..] == s;
    }
  }

  lemma {:induction false} SplitAfterFirstSeparator(a: string, sep: char, b: string)
    requires sep !in a
    ensures Split(a + [sep] + b, sep) == [a] + Split(b, sep)
    decreases |a|
  {
    var s := a + [sep] + b;
    if |a| == 0 {
      assert s[1..] == b;
    } else {
      assert s[1..] == a[1..] + [sep] + b;
      SplitAfterFirstSeparator(a[1..], sep, b);
      assert [s[0]] + a[1..] == a;
    }
  }

  /** Splitting undoes joining when no part contains the separator. */
  lemma {:induction false} SplitJoin(parts: seq<string>, sep: char)
    requires |parts| >= 1
    requires SeparatorFree(parts, sep)
    ensures Split(Join(parts, sep), sep) == parts
    decreases |parts|
  {
    if |parts| == 1 {
      SplitWithoutSeparator(parts[0], sep);
    } else {
      SplitAfterFirstSeparator(parts[0], sep, Join(parts[1..], sep));
      SplitJoin(parts[1..], sep);
      assert [parts[0]] + parts[1..] == parts;
    }
  }

  /** A joined string contains the separator only where `Join` put it. */
  lemma {:induction false} JoinSeparatorFree(parts: seq<string>, sep: char, other: char)
    requires other != sep
    requires SeparatorFree(parts, other)
    ensures other !in Join(parts, sep)
    decreases |parts|
  {
    if |parts| > 1 {
      JoinSeparatorFree(parts[1..], sep, other);
    }
  }

  predicate IsDigit(c: char)
  {
    '0' <= c <= '9'
  }

  predicate AllDigits(s: string)
  {
    forall i :: 0 <= i < |s| ==> IsDigit(s[i])
  }

  function DigitChar(d: nat): (c: char)
    requires d < 10
    ensures IsDigit(c)
  {
    "0123456789"[d]
  }

  function DigitValue(c: char): (d: nat)
    requires IsDigit(c)
    ensures d < 10
  {
    (c as int - '0' as int) as nat
  }

  lemma DigitRoundTrip(d: nat)
    requires d < 10
    ensures DigitValue(DigitChar(d)) == d
  {
  }

  /** Decimal rendering of a natural number, without leading zeros. */
  function NatToString(n: nat): (s: string)
    ensures |s| >= 1 && AllDigits(s)
  {
    if n < 10 then [DigitChar(n)]
    else NatToString(n / 10) + [DigitChar(n % 10)]
  }

  /** The value of a run of decimal digits (the empty run is 0). */
  function DigitsValue(s: string): nat
    requires AllDigits(s)
  {
    if |s| == 0 then 0
    else 10 * DigitsValue(s[..|s| - 1]) + DigitValue(s[|s| - 1])
  }

  /** Reads a natural number written as one or more decimal digits. */
  function ParseNat(s: string): (r: Option<nat>)
    ensures r.Some? <==> |s| >= 1 && AllDigits(s)
  {
    if |s| >= 1 && AllDigits(s) then Some(DigitsValue(s)) else None
  }

  /** Rendering a number in decimal and reading it back gives the number. */
  lemma {:induction false} NatToStringRoundTrip(n: nat)
    ensures ParseNat(NatToString(n)) == Some(n)
    ensures DigitsValue(NatToString(n)) == n
    decreases n
  {
    var s := NatToString(n);
    if n < 10 {
      DigitRoundTrip(n);
      assert s[..|s| - 1] == [];
      assert DigitsValue(s[..|s| - 1]) == 0;
    } else {
      NatToStringRoundTrip(n / 10);
      DigitRoundTrip(n % 10);
      assert s[..|s| - 1] == NatToString(n / 10);
    }
  }

}

=== FILE: types.dfy ===
/** The schedule record of the calculator: one row per month of the loan. */
module Types {

  /** One period of an amortization schedule. `month` is 1-based; the four
      amounts are currency units, kept as exact reals. */
  datatype AmortizationData = AmortizationData(
    month: nat,
    payment: real,
    principal: real,
    interest: real,
    remainingBalance: real
  )

}

=== FILE: wrappers.dfy ===
/** The optional-value datatype shared by the model: `None` stands for a
    JavaScript `null`/`undefined` (or a `NaN` parse result), `Some` for a value. */
module Wrappers {

  datatype Option<+T> = None | Some(value: T)

}
